=== FILE: README.md ===
# pactl-loopback-gui core, modelled in Dafny

pactl-loopback-gui is a Swing front end to PulseAudio's `pactl`. It lists
sources, sinks and loaded modules, and it loads or unloads `module-loopback`
modules that join a source to a sink. This project models the part of the
program that does not paint anything:

- **Module arguments** (`PactlArguments`). The `key=value` argument string
  of a module is read by a six-state tokenizer modelled on PulseAudio's
  `pa_modargs_new`. The same string is written back by a serializer that
  quotes values holding whitespace. The typed accessors read and write
  integers and booleans. An argument map is a `LinkedHashMap`. It is modelled
  as a sequence of (key, value) pairs in insertion order (`OrderedMaps`).
- **Commands** (`Pactl`). The model builds the argument vector of every
  `pactl` call, with or without the configurable command wrapper. It parses
  the `list short modules` listing line by line, reads the index that
  `load-module` prints, and applies the close rule. That rule turns a
  non-zero exit status into an `IOException` carrying the standard error
  lines.
- **Module record** (`PactlModule`). It holds an index, a name and an
  argument map. Its `toString` writes the three fields separated by tabs.
- **The panel's tables** (`MainPanel.loadSourcesOrSinks` and
  `MainPanel.loadLinks`):
  - sources or sinks keyed by index;
  - the loopback links, keyed first by source index and then by sink index;
  - in both, an `IOException` leaves the table empty.

The process is not run. Each operation takes a `System` value. Its `run`
field maps an argument vector to the lines the process printed on standard
output and standard error, and to its exit status. The command wrapper is the
`wrapper` field. Gson's decoding of the JSON listing is a `decode` parameter.
The Java exceptions become an `Error` value in `Result`:
- `NumberFormatException` becomes `NotAnInteger`;
- a missing field becomes `MissingField`;
- the tokenizer's `IllegalArgumentException`s become `UnexpectedEquals`,
  `DuplicateKey` and `UnexpectedEnd`;
- a `JsonSyntaxException` becomes `MalformedJson`;
- a missing first output line (`readLine()` returning null) becomes
  `NoOutput`;
- the `NullPointerException` of streaming a null JSON list becomes
  `NullListing`;
- the close rule's `IOException` becomes `ProcessFailed`.

Strings are sequences of `char`, with one `char` per code point. `int` is the
subset type `Int32`.

Files:
- `results.dfy`: `Option`, `Result` and `Error`.
- `text.dfy`: the Java string operations the core relies on:
  - `Character.isWhitespace`;
  - `String.join`;
  - `String.split` with a positive limit;
  - `Integer.toString` and `Integer.parseInt`;
  - `String.trim`;
  - `toLowerCase`.
- `ordered_map.dfy`: `LinkedHashMap` get and put, and `Map.equals`.
- `arguments.dfy`: the tokenizer, the serializer and the accessors.
- `arguments_proofs.dfy`: the round trip, and the tokenizer's error cases.
- `pactl_module.dfy`: the module record and its `toString`.
- `pactl.dfy`: argument vectors, commands, listing parse, and the close rule.
- `links.dfy`: the sources/sinks table and the links table.

## Model

| member | source | states |
|---|---|---|
| Arguments.Parse | src/main/java/io/github/gaming32/pactlloopbackgui/pactl/PactlArguments.java:83-195 | A successful parse yields a map without repeated keys. Every key is non-empty, does not start with whitespace and holds no `=`. Every value is whitespace-free or lacks one of the two quote characters, as the three value forms allow. |
| Arguments.RunExtends | src/main/java/io/github/gaming32/pactlloopbackgui/pactl/PactlArguments.java:96-177 | The tokenizer loop only appends entries: the map it started from is a prefix of the result. Distinct keys and well-formed entries are kept. |
| Arguments.FinishCases | src/main/java/io/github/gaming32/pactlloopbackgui/pactl/PactlArguments.java:179-192 | At end of input, the parse succeeds exactly in two cases. Either it is between entries, or it is after `key=` or an unquoted value whose key is new. Otherwise it fails inside a key or a quote. Success only appends. |
| Arguments.ValueToString | src/main/java/io/github/gaming32/pactlloopbackgui/pactl/PactlArguments.java:72-80 | A value without whitespace is written as is. Otherwise it is wrapped in one matching pair of quotes: double quotes unless the value holds one, ticks when it does. |
| Arguments.Serialize | src/main/java/io/github/gaming32/pactlloopbackgui/pactl/PactlArguments.java:65-70 | The text is empty exactly for the empty map. Its inverse is Parse (see ArgumentsProofs.RoundTrip). |
| ArgumentsProofs.RoundTrip | src/main/java/io/github/gaming32/pactlloopbackgui/pactl/PactlArguments.java:65-80 | Parsing the serialized map gives back the same map, in the same order, under these conditions: keys are distinct, non-empty, free of `=` and do not start with whitespace; an unquoted value does not start with a quote; a quoted value leaves one quote character free. |
| ArgumentsProofs.ParseSerialized | src/main/java/io/github/gaming32/pactlloopbackgui/pactl/PactlArguments.java:126-127 | Serialized entries that repeat a key are rejected with a duplicate-key error. Without a repeat they read back unchanged. |
| ArgumentsProofs.ParseEntries | src/main/java/io/github/gaming32/pactlloopbackgui/pactl/PactlArguments.java:138-142 | Reading one more entry after serialized ones appends it when its key is new. It fails with a duplicate-key error otherwise. |
| ArgumentsProofs.EqualsAfterWhitespaceFails | src/main/java/io/github/gaming32/pactlloopbackgui/pactl/PactlArguments.java:99-102 | After serialized entries, an `=` where a key should start fails with UnexpectedEquals at exactly that position. This covers the start of input and the point after separating whitespace. |
| ArgumentsProofs.EqualsAfterQuoteFails | src/main/java/io/github/gaming32/pactlloopbackgui/pactl/PactlArguments.java:149-161 | An `=` right after a closing quote fails at its position, because the closing quote returns the tokenizer to the between-entries state. |
| ArgumentsProofs.EqualsAfterEntry | src/main/java/io/github/gaming32/pactlloopbackgui/pactl/PactlArguments.java:162-174 | The same failure after a quoted entry that follows other entries. The position counts every character before the `=`. |
| ArgumentsProofs.EndInsideKeyFails | src/main/java/io/github/gaming32/pactlloopbackgui/pactl/PactlArguments.java:190-191 | Input ending inside a key (no `=` yet) after serialized entries fails with UnexpectedEnd. |
| ArgumentsProofs.UnterminatedQuoteFails | src/main/java/io/github/gaming32/pactlloopbackgui/pactl/PactlArguments.java:190-191 | Input ending inside a quoted value after serialized entries fails with UnexpectedEnd, for either quote character. |
| ArgumentsProofs.EndInsideValueStores | src/main/java/io/github/gaming32/pactlloopbackgui/pactl/PactlArguments.java:183-189 | An unquoted value cut off by the end of input is still stored, up to the end. |
| Arguments.GetInt | src/main/java/io/github/gaming32/pactlloopbackgui/pactl/PactlArguments.java:14-17 | A result is present exactly for a stored key whose value parses as a 32-bit integer, and the result is that integer. |
| Arguments.GetIntOrDefault | src/main/java/io/github/gaming32/pactlloopbackgui/pactl/PactlArguments.java:19-22 | The default is returned for a missing key or an unparsable value. Otherwise the parsed value is returned. |
| Arguments.IntValue | src/main/java/io/github/gaming32/pactlloopbackgui/pactl/PactlArguments.java:29-36 | Absent for a missing value and for a value that is not a 32-bit integer. Otherwise the integer the value denotes. |
| Arguments.IntValueReadsDecimal | src/main/java/io/github/gaming32/pactlloopbackgui/pactl/PactlArguments.java:26 | The decimal text that putInt stores reads back as the integer stored. |
| Arguments.PutInt | src/main/java/io/github/gaming32/pactlloopbackgui/pactl/PactlArguments.java:24-27 | After the put, the key holds the decimal text and reads back as the integer. Other keys are unchanged. The result is the previous value read as an integer. |
| Arguments.ParseBoolean | src/main/java/io/github/gaming32/pactlloopbackgui/pactl/PactlArguments.java:53-63 | The result is true exactly for the six true words in any letter case, and false exactly for the six false words. It is absent otherwise and for a missing value. |
| Arguments.LowerMatchesWord | src/main/java/io/github/gaming32/pactlloopbackgui/pactl/PactlArguments.java:58-61 | Lower-casing and then matching a word is the same as a case-insensitive match. |
| Arguments.GetBoolean | src/main/java/io/github/gaming32/pactlloopbackgui/pactl/PactlArguments.java:38-41 | True or false exactly when the key is stored and its value is a true or false word in any case. Absent for a missing key. |
| Arguments.GetBooleanOrDefault | src/main/java/io/github/gaming32/pactlloopbackgui/pactl/PactlArguments.java:43-46 | The default is returned exactly when getBoolean gives nothing. |
| Arguments.PutBoolean | src/main/java/io/github/gaming32/pactlloopbackgui/pactl/PactlArguments.java:48-51 | After the put, the key holds `y` for true and `n` for false, and reads back as the stored boolean. Other keys are unchanged. The result is the previous value read as a boolean. |
| Arguments.BooleanTextReadsBack | src/main/java/io/github/gaming32/pactlloopbackgui/pactl/PactlArguments.java:50 | The words `y` and `n` that putBoolean stores parse back to true and false. |
| OrderedMaps.Put | src/main/java/io/github/gaming32/pactlloopbackgui/pactl/PactlArguments.java:126-127 | The put returns the previous value, and afterwards the key holds the new value. Other keys keep theirs. A new key goes last; an existing key keeps its position. Distinct keys stay distinct. |
| OrderedMaps.SameEntriesIffSameGet | src/main/java/io/github/gaming32/pactlloopbackgui/pactl/PactlModule.java:5 | Two argument maps are equal (same entries, any order) exactly when every lookup agrees. |
| PactlModules.SameModuleIff | src/main/java/io/github/gaming32/pactlloopbackgui/pactl/PactlModule.java:5 | Two module records are equal exactly when index and name agree and every argument lookup agrees. |
| PactlModules.ModuleText | src/main/java/io/github/gaming32/pactlloopbackgui/pactl/PactlModule.java:6-9 | The line starts with the index in decimal, then a tab, the name, a tab and the serialized arguments, each at its position. Its inverse is Pactl.ModuleLineRoundTrip. |
| PactlModules.ModuleTextFields | src/main/java/io/github/gaming32/pactlloopbackgui/pactl/PactlModule.java:6-9 | Splitting toString's line on tabs gives back the decimal index and the name. When the arguments have no tab, it also gives back the whole argument text. |
| PactlModules.SerializeTabFree | src/main/java/io/github/gaming32/pactlloopbackgui/pactl/PactlModule.java:8 | Arguments without tabs serialize without tabs. |
| Pactl.Argv | src/main/java/io/github/gaming32/pactlloopbackgui/pactl/Pactl.java:63-72 | Without a wrapper, the vector is `pactl` followed by the command words. With a wrapper, it is the wrapper words followed by one final word: `pactl `, then the command words joined by single spaces. |
| Pactl.WrappedCommandLine | src/main/java/io/github/gaming32/pactlloopbackgui/pactl/Pactl.java:65-67 | The wrapper's last word, split at spaces, is exactly the unwrapped vector, provided no command word holds a space. |
| Pactl.ListCommand | src/main/java/io/github/gaming32/pactlloopbackgui/pactl/Pactl.java:26-35 | The vector is `--format json list` followed by `sources` exactly for the sources listing and `sinks` otherwise. |
| Pactl.LoadModuleCommand | src/main/java/io/github/gaming32/pactlloopbackgui/pactl/Pactl.java:53-54 | `load-module`, the name, and one word that parses back to the argument map (under the round-trip condition). The word is empty exactly for no arguments. |
| Pactl.UnloadModuleCommand | src/main/java/io/github/gaming32/pactlloopbackgui/pactl/Pactl.java:59-60 | `unload-module` and a whitespace-free word that parses back to the index. |
| Pactl.Close | src/main/java/io/github/gaming32/pactlloopbackgui/pactl/Pactl.java:77-84 | Closing succeeds exactly when the exit status is 0. Otherwise it fails with a process error whose message is the standard error lines joined by line feeds. |
| Pactl.CloseMessageLines | src/main/java/io/github/gaming32/pactlloopbackgui/pactl/Pactl.java:81-83 | The failure message, split at newlines, gives back the standard error lines. |
| Pactl.WithClose | src/main/java/io/github/gaming32/pactlloopbackgui/pactl/Pactl.java:41-46 | A failure of the body is reported over a failure of close. A successful body is returned only when close succeeds. |
| Pactl.ParseModuleLine | src/main/java/io/github/gaming32/pactlloopbackgui/pactl/Pactl.java:42-45 | A parsed module's index is the first tab field read as an integer. Its arguments are the third field read by the tokenizer. Its name has no tab. |
| Pactl.ModuleFromFields | src/main/java/io/github/gaming32/pactlloopbackgui/pactl/Pactl.java:44 | The fields give a module exactly when the first is an integer, there are at least three and the third parses. Errors come in Java's evaluation order: the bad index first, then the missing second or third field, then the tokenizer's error. A module holds the integer, the second field and the parsed map. |
| Pactl.ModuleLineWithoutTab | src/main/java/io/github/gaming32/pactlloopbackgui/pactl/Pactl.java:43-44 | A line without a tab fails. The error is the bad index when the line is not an integer, and the missing name field otherwise. |
| Pactl.ModuleLineWithOneTab | src/main/java/io/github/gaming32/pactlloopbackgui/pactl/Pactl.java:43-44 | A line with one tab fails on the index first, then on the missing arguments field. |
| Pactl.ModuleLineIgnoresFourthField | src/main/java/io/github/gaming32/pactlloopbackgui/pactl/Pactl.java:43-44 | Anything after a third tab is ignored. |
| Pactl.ModuleLineRoundTrip | src/main/java/io/github/gaming32/pactlloopbackgui/pactl/Pactl.java:42-45 | Parsing the line that toString writes gives back the module, provided the name and arguments hold no tab and the arguments meet the round-trip condition. |
| Pactl.ParseModuleLines | src/main/java/io/github/gaming32/pactlloopbackgui/pactl/Pactl.java:42-45 | The listing parses exactly when every line does, giving one module per line in order. A failure is the failure of some line. |
| Pactl.ModuleLinesFirstError | src/main/java/io/github/gaming32/pactlloopbackgui/pactl/Pactl.java:42-45 | The failure reported is that of the first failing line. |
| Pactl.ModuleListRoundTrip | src/main/java/io/github/gaming32/pactlloopbackgui/pactl/Pactl.java:40-47 | The lines toString writes for a list of modules parse back to that list. |
| Pactl.ListModules | src/main/java/io/github/gaming32/pactlloopbackgui/pactl/Pactl.java:40-47 | Runs `pactl list short modules`. It succeeds exactly when the exit status is 0 and every line parses, and then returns the modules the line-by-line parse gives, one per line. A line's parse error is reported over the exit status; a clean parse with a bad exit status reports the standard error. |
| Pactl.FirstLineIndex | src/main/java/io/github/gaming32/pactlloopbackgui/pactl/Pactl.java:55 | No output line gives NoOutput. Otherwise it succeeds exactly when the trimmed first line is an integer, and returns that integer; else it fails with the bad-integer error on the trimmed text. |
| Pactl.LoadModule | src/main/java/io/github/gaming32/pactlloopbackgui/pactl/Pactl.java:53-57 | Runs `pactl load-module` with the serialized map. It succeeds exactly when the exit status is 0 and the trimmed first line is an integer, and returns that integer. A missing or non-integer first line is reported over the exit status; otherwise a bad exit status reports the standard error. |
| Pactl.LoadModuleWithoutArguments | src/main/java/io/github/gaming32/pactlloopbackgui/pactl/Pactl.java:49-51 | The same as LoadModule, with an empty argument word: the same success condition and the same two error cases in the same order. |
| Pactl.LoadModuleReadsIndex | src/main/java/io/github/gaming32/pactlloopbackgui/pactl/Pactl.java:55 | An index printed in decimal, padded by control characters or spaces, is the index returned. |
| Pactl.UnloadModule | src/main/java/io/github/gaming32/pactlloopbackgui/pactl/Pactl.java:59-61 | Runs `pactl unload-module` with the decimal index. It succeeds exactly when the exit status is 0; otherwise it reports the standard error. |
| Pactl.ListSourcesOrSinks | src/main/java/io/github/gaming32/pactlloopbackgui/pactl/Pactl.java:34-38 | Runs the JSON listing. Output that does not decode is a JSON error, whatever the exit status. Otherwise a non-zero exit status reports the standard error. With exit status 0, a decoded list is returned as is, and a `null` document (such as empty output) is returned as a null list. |
| Text.SplitSound | src/main/java/io/github/gaming32/pactlloopbackgui/pactl/Pactl.java:43 | The pieces of a split join back to the input. Every piece but the last is free of the separator, and so is the last when fewer pieces than the limit came out. |
| Text.SplitJoin | src/main/java/io/github/gaming32/pactlloopbackgui/pactl/Pactl.java:43 | Splitting a join, with a limit of at least the number of parts, recovers the parts when none holds the separator. |
| Text.ParseIntDecimal | src/main/java/io/github/gaming32/pactlloopbackgui/pactl/Pactl.java:60 | Every 32-bit integer's decimal text parses back to it. |
| Text.TrimPadded | src/main/java/io/github/gaming32/pactlloopbackgui/pactl/Pactl.java:55 | Trimming removes exactly the padding of characters up to space around a text that starts and ends with a visible character. |
| Links.LoadSourcesOrSinks | src/main/java/io/github/gaming32/pactlloopbackgui/gui/MainPanel.java:157-166 | The table has no repeated index. |
| Links.SourcesOrSinksKeys | src/main/java/io/github/gaming32/pactlloopbackgui/gui/MainPanel.java:161-166 | The table's keys are exactly the indices in the listing. |
| Links.SourcesOrSinksLastWins | src/main/java/io/github/gaming32/pactlloopbackgui/gui/MainPanel.java:164 | Each index maps to the last entry listed with it. |
| Links.SourcesOrSinksOrder | src/main/java/io/github/gaming32/pactlloopbackgui/gui/MainPanel.java:165 | The keys are ordered by their first occurrence in the listing. |
| Links.SourcesOrSinksOrEmpty | src/main/java/io/github/gaming32/pactlloopbackgui/gui/MainPanel.java:157-170 | A process failure gives the empty table. A null list fails with NullListing. Any other failure propagates; a list gives its table. |
| Links.FailedListingLeavesTableEmpty | src/main/java/io/github/gaming32/pactlloopbackgui/gui/MainPanel.java:167-170 | When the listing exits with a non-zero status and its output is not malformed JSON (empty output included), the table is empty. |
| Links.NullListingPropagates | src/main/java/io/github/gaming32/pactlloopbackgui/gui/MainPanel.java:159-160 | When the listing exits with status 0 but its output decodes to `null`, building the table fails with NullListing. |
| Links.GroupSources | src/main/java/io/github/gaming32/pactlloopbackgui/gui/MainPanel.java:178-179 | Grouping has one group per source index of a loopback module. |
| Links.GroupSinks | src/main/java/io/github/gaming32/pactlloopbackgui/gui/MainPanel.java:181-185 | A group's keys are the sink indices of the loopback modules from that source. |
| Links.GroupSound | src/main/java/io/github/gaming32/pactlloopbackgui/gui/MainPanel.java:178-185 | Every grouped module is a loopback module from that source to that sink. |
| Links.GroupLastWins | src/main/java/io/github/gaming32/pactlloopbackgui/gui/MainPanel.java:184 | For a source and sink pair, the module kept is the last one listed. |
| Links.LoadLinks | src/main/java/io/github/gaming32/pactlloopbackgui/gui/MainPanel.java:173-193 | Index -1 (a missing or unparsable source or sink) appears at neither level. Sources are those of loopback modules. Each source's sinks are those of its loopback modules. |
| Links.LinksSound | src/main/java/io/github/gaming32/pactlloopbackgui/gui/MainPanel.java:177-193 | Every link held is a listed loopback module joining that source to that sink. |
| Links.LinksComplete | src/main/java/io/github/gaming32/pactlloopbackgui/gui/MainPanel.java:177-193 | Every loopback module whose source and sink are not -1 is found under them, unless a later module joins the same pair. |
| Links.SourceWithoutSinksKept | src/main/java/io/github/gaming32/pactlloopbackgui/gui/MainPanel.java:186-192 | A source whose loopbacks all lack a sink stays in the table with an empty inner map. Only the inner -1 entry is removed. |
| Links.LinksOrEmpty | src/main/java/io/github/gaming32/pactlloopbackgui/gui/MainPanel.java:194-197 | A process failure gives the empty table. A parse failure of the listing propagates. |

## Left out

- Starting the process and reading its streams are not modelled; the `System.run` parameter stands for them (Pactl.java:74-75). `System.run` always returns an output, so the `IOException` that `ProcessBuilder.start()` throws when `pactl` cannot be started has no model; the panel would show an empty table then, as it does for `ProcessFailed`. So is `waitFor`'s `InterruptedException`, which becomes an `IllegalStateException` (Pactl.java:85-87), since an interruption cannot be expressed without threads.
- The `pactl.commandWrapper` system property and its split at spaces (Pactl.java:19-21) are left out: the split wrapper words are the `System.wrapper` parameter.
- Gson's JSON decoding (Pactl.java:36) is left out: it is the `decode` parameter, with three outcomes. A syntax error is `Malformed`. A `null` document, which is what Gson returns for empty input, is `JsonNull`. Anything else is a list of entries. A JSON list with a `null` element (`[null]`) cannot be represented: Gson returns a list holding `null`, and with status 0 the panel's `toMap` fails on it with an uncaught `NullPointerException`. For a `null` document, the exit status still decides: a non-zero status is a process failure, and the panel shows an empty table. With status 0, the null list reaches the panel, and streaming it fails with NullListing.
- `PactlSourceOrSink` is not part of this model beyond its index and description: only the index is used by the core.
- Strings are modelled with one `char` per code point. `codePointAt` and `Character.charCount` over UTF-16 surrogate pairs (PactlArguments.java:97, 176) therefore have no separate model.
- Text.ParseInt: accepts only ASCII digits. `Integer.parseInt` also accepts other Unicode decimal digits, which pactl never prints.
- Text.Lower: lowers ASCII letters only. `toLowerCase(Locale.ROOT)` lowers every letter. The boolean words are ASCII, and only two non-ASCII characters lower into ASCII: the Kelvin sign lowers to `k`, and the dotted capital I lowers to `i` followed by a combining dot. Neither `k` nor `i` occurs in any boolean word. So ParseBoolean decides the same on every input.
- Links.LoadLinks: the outer `HashMap` and the inner maps from `groupingBy` and `toMap` have no defined iteration order. They are modelled as Dafny maps, so no order is stated.
- Arguments.Serialize: its own contract states only when the text is empty. What the text holds is stated by its inverse, ArgumentsProofs.RoundTrip.
- ArgumentsProofs.RoundTrip: holds under a precondition. The serializer does not escape a key that is empty, starts with whitespace or holds `=`, nor a value that needs both quote characters or starts with a quote but has no whitespace, and such maps do not read back.
- The panel's `refresh` and `refreshLinks` (MainPanel.java:135-155) are left out, as are painting, mouse handling and logging: they are GUI state changes with no result to state.
- `Main.java` and the build file are not part of this model.

=== FILE: arguments.dfy ===
/**
 PulseAudio module arguments: the `key=value key2="a b" key3='x "y"'` text that
 `pactl` prints and accepts. `Parse` is the six-state tokenizer of
 PactlArguments.parse (itself a port of pa_modargs_new), `Serialize` its
 counterpart PactlArguments.toString, and the typed accessors read and write
 integers and booleans in an argument map.
 */
module Arguments {
  import opened Results
  import opened Text
  import opened OrderedMaps

  /** An argument map: keys in insertion order (a LinkedHashMap<String, String>). */
  type Args = seq<(string, string)>

  // ---------------------------------------------------------------------------
  // Shapes of keys and values

  /** What the tokenizer can read as a key: it starts at a character that is
      neither whitespace nor '=', and runs up to the next '='. */
  predicate KeyText(k: string) {
    |k| > 0 && !IsWhitespace(k[0]) && '=' !in k
  }

  /** A value the tokenizer reads unquoted: no whitespace, no opening quote. */
  predicate BareText(v: string) {
    !HasWhitespace(v) && (|v| > 0 ==> v[0] != '"' && v[0] != '\'')
  }

  /** A value some form of the grammar can carry: unquoted values have no
      whitespace, double-quoted ones no '"', single-quoted ones no '\''. */
  predicate ValueShape(v: string) {
    !HasWhitespace(v) || '"' !in v || '\'' !in v
  }

  ghost predicate Shaped(a: Args) {
    forall j :: 0 <= j < |a| ==> KeyText(a[j].0) && ValueShape(a[j].1)
  }

  // ---------------------------------------------------------------------------
  // Tokenizer (PactlArguments.parse)

  datatype State = Whitespace | Key | ValueStart | ValueSimple | ValueDoubleQuotes | ValueTicks

  /** The tokenizer's registers: its state and the bounds of the key and of the
      value being read, as offsets into the input. */
  datatype Cursor = Cursor(state: State, keyStart: nat, keyLength: nat, valueStart: nat, valueLength: nat)

  const Start := Cursor(Whitespace, 0, 0, 0, 0)

  /** The registers point into the part of the input read so far. */
  predicate Bounds(text: string, i: nat, c: Cursor) {
    && i <= |text|
    && c.keyStart + c.keyLength <= i
    && c.valueStart + c.valueLength <= i
  }

  /** What holds of the registers before the character at position i is read. */
  ghost predicate Inv(text: string, i: nat, c: Cursor) {
    && Bounds(text, i, c)
    && (c.state.Key? ==> c.keyStart + c.keyLength == i && KeyText(text[c.keyStart..i]))
    && (!c.state.Whitespace? && !c.state.Key? ==>
          c.keyStart + c.keyLength < i && KeyText(text[c.keyStart..c.keyStart + c.keyLength]))
    && (c.state.ValueSimple? ==>
          c.keyStart + c.keyLength < c.valueStart && c.valueStart + c.valueLength == i
          && c.valueLength > 0 && BareText(text[c.valueStart..i]))
    && (c.state.ValueDoubleQuotes? ==> c.valueStart + c.valueLength == i && '"' !in text[c.valueStart..i])
    && (c.state.ValueTicks? ==> c.valueStart + c.valueLength == i && '\'' !in text[c.valueStart..i])
  }

  function KeyOf(text: string, c: Cursor): string
    requires c.keyStart + c.keyLength <= |text|
  {
    text[c.keyStart..c.keyStart + c.keyLength]
  }

  /** `acc2` is `acc` or `acc` with one new, well-shaped entry at its end. */
  ghost predicate Extends(acc: Args, acc2: Args) {
    || acc2 == acc
    || (&& |acc2| == |acc| + 1 && acc2[..|acc|] == acc
        && acc2[|acc|].0 !in Keys(acc)
        && KeyText(acc2[|acc|].0) && ValueShape(acc2[|acc|].1))
  }

  /** `result.put(key, value)` followed by the check that put returned null:
      the key must be new, and then the entry goes at the end. */
  function Store(acc: Args, key: string, value: string, keyStart: nat): Result<Args> {
    if key in Keys(acc) then Err(DuplicateKey(keyStart)) else Ok(acc + [(key, value)])
  }

  function Continue(stored: Result<Args>, next: Cursor): Result<(Cursor, Args)> {
    match stored
    case Err(e) => Err(e)
    case Ok(a) => Ok((next, a))
  }

  /** Completes the current key with `value` and goes back to the whitespace state. */
  function StoreAndSkip(text: string, c: Cursor, acc: Args, value: string): Result<(Cursor, Args)>
    requires c.keyStart + c.keyLength <= |text|
  {
    Continue(Store(acc, KeyOf(text, c), value, c.keyStart), c.(state := Whitespace))
  }

  /** The WHITESPACE state: skip whitespace, start a key anywhere else, reject '='. */
  function StepWhitespace(text: string, i: nat, c: Cursor, acc: Args): Result<(Cursor, Args)>
    requires i < |text|
  {
    var ch := text[i];
    if ch == '=' then Err(UnexpectedEquals(i))
    else if !IsWhitespace(ch) then Ok((c.(state := Key, keyStart := i, keyLength := 1), acc))
    else Ok((c, acc))
  }

  /** The KEY state: everything up to '=' belongs to the key. */
  function StepKey(text: string, i: nat, c: Cursor, acc: Args): Result<(Cursor, Args)>
    requires i < |text|
  {
    if text[i] == '=' then Ok((c.(state := ValueStart), acc))
    else Ok((c.(keyLength := c.keyLength + 1), acc))
  }

  /** The VALUE_START state: the character after '=' chooses the value form. */
  function StepValueStart(text: string, i: nat, c: Cursor, acc: Args): Result<(Cursor, Args)>
    requires i < |text| && c.keyStart + c.keyLength <= |text|
  {
    var ch := text[i];
    if ch == '\'' then Ok((c.(state := ValueTicks, valueStart := i + 1, valueLength := 0), acc))
    else if ch == '"' then Ok((c.(state := ValueDoubleQuotes, valueStart := i + 1, valueLength := 0), acc))
    else if IsWhitespace(ch) then StoreAndSkip(text, c, acc, "")
    else Ok((c.(state := ValueSimple, valueStart := i, valueLength := 1), acc))
  }

  /** The character that ends a value in each value state. */
  predicate Ends(s: State, ch: char) {
    if s.ValueSimple? then IsWhitespace(ch)
    else if s.ValueDoubleQuotes? then ch == '"'
    else ch == '\''
  }

  /** VALUE_SIMPLE, VALUE_DOUBLE_QUOTES and VALUE_TICKS: the value runs up to
      whitespace, '"' or '\'' respectively. */
  function StepValue(text: string, i: nat, c: Cursor, acc: Args): Result<(Cursor, Args)>
    requires i < |text| && c.keyStart + c.keyLength <= |text| && c.valueStart + c.valueLength <= |text|
  {
    if Ends(c.state, text[i]) then
      StoreAndSkip(text, c, acc, text[c.valueStart..c.valueStart + c.valueLength])
    else Ok((c.(valueLength := c.valueLength + 1), acc))
  }

  /** One iteration of the tokenizer loop: reads the character at position i. */
  function Step(text: string, i: nat, c: Cursor, acc: Args): Result<(Cursor, Args)>
    requires i < |text| && Bounds(text, i, c)
  {
    match c.state
    case Whitespace => StepWhitespace(text, i, c, acc)
    case Key => StepKey(text, i, c, acc)
    case ValueStart => StepValueStart(text, i, c, acc)
    case _ => StepValue(text, i, c, acc)
  }

  lemma SliceSnoc(text: string, a: nat, i: nat)
    requires a <= i < |text|
    ensures text[a..i + 1] == text[a..i] + [text[i]]
  {
  }

  /** A stored entry extends the map by one well-shaped entry. */
  lemma StoreExtends(text: string, i: nat, c: Cursor, acc: Args, value: string)
    requires i < |text| && Inv(text, i, c) && !c.state.Whitespace? && !c.state.Key?
    requires ValueShape(value)
    ensures StoreAndSkip(text, c, acc, value).Ok? ==>
              Inv(text, i + 1, StoreAndSkip(text, c, acc, value).value.0)
              && Extends(acc, StoreAndSkip(text, c, acc, value).value.1)
  {
    var key := KeyOf(text, c);
    if key !in Keys(acc) {
      var b := acc + [(key, value)];
      assert b[..|acc|] == acc;
    }
  }

  /** Every step keeps the registers within the input read so far. */
  lemma StepKeepsBounds(text: string, i: nat, c: Cursor, acc: Args)
    requires i < |text| && Bounds(text, i, c)
    ensures Step(text, i, c, acc).Ok? ==> Bounds(text, i + 1, Step(text, i, c, acc).value.0)
  {
  }

  /** Every step keeps the register invariant and extends the map by at most one
      well-shaped entry under a fresh key. */
  lemma StepKeepsInv(text: string, i: nat, c: Cursor, acc: Args)
    requires i < |text| && Inv(text, i, c)
    ensures Step(text, i, c, acc).Ok? ==>
              Inv(text, i + 1, Step(text, i, c, acc).value.0) && Extends(acc, Step(text, i, c, acc).value.1)
  {
    match c.state
    case Whitespace => WhitespaceKeepsInv(text, i, c, acc);
    case Key => KeyKeepsInv(text, i, c, acc);
    case ValueStart => ValueStartKeepsInv(text, i, c, acc);
    case _ => ValueKeepsInv(text, i, c, acc);
  }

  lemma WhitespaceKeepsInv(text: string, i: nat, c: Cursor, acc: Args)
    requires i < |text| && Inv(text, i, c) && c.state.Whitespace?
    ensures Step(text, i, c, acc).Ok? ==>
              Inv(text, i + 1, Step(text, i, c, acc).value.0) && Extends(acc, Step(text, i, c, acc).value.1)
  {
    assert text[i..i + 1] == [text[i]];
  }

  lemma KeyKeepsInv(text: string, i: nat, c: Cursor, acc: Args)
    requires i < |text| && Inv(text, i, c) && c.state.Key?
    ensures Step(text, i, c, acc).Ok? ==>
              Inv(text, i + 1, Step(text, i, c, acc).value.0) && Extends(acc, Step(text, i, c, acc).value.1)
  {
    if text[i] != '=' {
      SliceSnoc(text, c.keyStart, i);
    }
  }

  lemma ValueStartKeepsInv(text: string, i: nat, c: Cursor, acc: Args)
    requires i < |text| && Inv(text, i, c) && c.state.ValueStart?
    ensures Step(text, i, c, acc).Ok? ==>
              Inv(text, i + 1, Step(text, i, c, acc).value.0) && Extends(acc, Step(text, i, c, acc).value.1)
  {
    if IsWhitespace(text[i]) {
      StoreExtends(text, i, c, acc, "");
    } else {
      assert text[i..i + 1] == [text[i]];
    }
  }

  lemma ValueKeepsInv(text: string, i: nat, c: Cursor, acc: Args)
    requires i < |text| && Inv(text, i, c)
    requires c.state.ValueSimple? || c.state.ValueDoubleQuotes? || c.state.ValueTicks?
    ensures Step(text, i, c, acc).Ok? ==>
              Inv(text, i + 1, Step(text, i, c, acc).value.0) && Extends(acc, Step(text, i, c, acc).value.1)
  {
    if Ends(c.state, text[i]) {
      assert text[c.valueStart..c.valueStart + c.valueLength] == text[c.valueStart..i];
      StoreExtends(text, i, c, acc, text[c.valueStart..i]);
    } else {
      SliceSnoc(text, c.valueStart, i);
    }
  }

  /** What happens when the input runs out in each state. */
  function Finish(text: string, c: Cursor, acc: Args): Result<Args>
    requires Bounds(text, |text|, c)
  {
    match c.state
    case ValueStart => Store(acc, KeyOf(text, c), "", c.keyStart)
    case ValueSimple => Store(acc, KeyOf(text, c), text[c.valueStart..], c.keyStart)
    case Whitespace => Ok(acc)
    case _ => Err(UnexpectedEnd)
  }

  /** The input may end between pairs, right after '=' or inside an unquoted
      value; anywhere else it is an error. */
  lemma FinishCases(text: string, c: Cursor, acc: Args)
    requires Inv(text, |text|, c)
    ensures Finish(text, c, acc).Ok? ==> Extends(acc, Finish(text, c, acc).value)
    ensures Finish(text, c, acc).Ok? <==>
              (c.state.Whitespace? || ((c.state.ValueStart? || c.state.ValueSimple?) && KeyOf(text, c) !in Keys(acc)))
  {
    var r := Finish(text, c, acc);
    if r.Ok? && r.value != acc {
      assert r.value[..|acc|] == acc;
      if c.state.ValueSimple? {
        assert text[c.valueStart..] == text[c.valueStart..|text|];
      }
    }
  }

  lemma ExtendsTransitive(a: Args, b: Args, c: Args)
    requires Extends(a, b)
    requires |b| <= |c| && c[..|b|] == b
    ensures |a| <= |c| && c[..|a|] == a
  {
    assert b[..|a|] == a;
    assert c[..|a|] == c[..|b|][..|a|];
  }

  lemma ExtendsKeepsDistinct(a: Args, b: Args)
    requires Extends(a, b)
    ensures DistinctKeys(a) ==> DistinctKeys(b)
  {
    if b != a && DistinctKeys(a) {
      forall i, j | 0 <= i < j < |b| ensures b[i].0 != b[j].0 {
        if j == |a| {
          assert b[i] == a[i];
          assert Keys(a)[i] == a[i].0;
        } else {
          assert b[i] == a[i] && b[j] == a[j];
        }
      }
    }
  }

  lemma ExtendsKeepsShape(a: Args, b: Args)
    requires Extends(a, b)
    ensures Shaped(a) ==> Shaped(b)
  {
    if b != a {
      forall j | 0 <= j < |a| ensures b[j] == a[j] {
        assert b[..|a|][j] == a[j];
      }
    }
  }

  /** The tokenizer loop from position i on, then the end-of-input check. */
  function Run(text: string, i: nat, c: Cursor, acc: Args): Result<Args>
    requires Bounds(text, i, c)
    decreases |text| - i
  {
    if i == |text| then Finish(text, c, acc)
    else
      match Step(text, i, c, acc)
      case Err(e) => Err(e)
      case Ok((next, acc2)) =>
        StepKeepsBounds(text, i, c, acc);
        Run(text, i + 1, next, acc2)
  }

  /** The loop only ever appends well-shaped entries under fresh keys. */
  lemma {:induction false} RunExtends(text: string, i: nat, c: Cursor, acc: Args)
    requires Inv(text, i, c)
    ensures Run(text, i, c, acc).Ok? ==>
              |acc| <= |Run(text, i, c, acc).value| && Run(text, i, c, acc).value[..|acc|] == acc
    ensures Run(text, i, c, acc).Ok? && DistinctKeys(acc) ==> DistinctKeys(Run(text, i, c, acc).value)
    ensures Run(text, i, c, acc).Ok? && Shaped(acc) ==> Shaped(Run(text, i, c, acc).value)
    decreases |text| - i
  {
    var r := Run(text, i, c, acc);
    if r.Ok? {
      if i == |text| {
        FinishCases(text, c, acc);
        ExtendsKeepsDistinct(acc, r.value);
        ExtendsKeepsShape(acc, r.value);
        ExtendsTransitive(acc, r.value, r.value);
      } else {
        StepKeepsInv(text, i, c, acc);
        var (next, acc2) := Step(text, i, c, acc).value;
        RunExtends(text, i + 1, next, acc2);
        ExtendsKeepsDistinct(acc, acc2);
        ExtendsKeepsShape(acc, acc2);
        ExtendsTransitive(acc, acc2, r.value);
      }
    }
  }

  /** PactlArguments.parse: the argument map in textual order, or the first error. */
  function Parse(text: string): (r: Result<Args>)
    ensures r.Ok? ==> DistinctKeys(r.value)
    ensures r.Ok? ==> forall j :: 0 <= j < |r.value| ==> KeyText(r.value[j].0) && ValueShape(r.value[j].1)
  {
    RunExtends(text, 0, Start, []);
    Run(text, 0, Start, [])
  }

  // ---------------------------------------------------------------------------
  // Serializer (PactlArguments.toString / valueToString)

  /** valueToString: bare without whitespace, otherwise quoted with whichever
      quote the value does not need, preferring '"'. */
  function ValueToString(v: string): (r: string)
    ensures !HasWhitespace(v) ==> r == v
    ensures HasWhitespace(v) ==> |r| == |v| + 2 && r[1..|r| - 1] == v && r[0] == r[|r| - 1]
    ensures HasWhitespace(v) && '"' !in v ==> r[0] == '"'
    ensures HasWhitespace(v) && '"' in v ==> r[0] == '\''
  {
    if !HasWhitespace(v) then v
    else if '"' in v then "'" + v + "'"
    else "\"" + v + "\""
  }

  function EntryText(key: string, value: string): string {
    key + "=" + ValueToString(value)
  }

  function EntryTexts(a: Args): (r: seq<string>)
    ensures |r| == |a|
    ensures forall j :: 0 <= j < |a| ==> r[j] == EntryText(a[j].0, a[j].1)
  {
    seq(|a|, j requires 0 <= j < |a| => EntryText(a[j].0, a[j].1))
  }

  /** PactlArguments.toString: the entries in map order, joined by single spaces. */
  function Serialize(a: Args): (r: string)
    ensures r == "" <==> a == []
  {
    Join(" ", EntryTexts(a))
  }

  // ---------------------------------------------------------------------------
  // Typed accessors

  /** The private parseInt(@Nullable String): null for null or a bad number. */
  function IntValue(value: Option<string>): (r: Option<Int32>)
    ensures value.None? ==> r.None?
    ensures r.Some? <==> value.Some? && ParseInt(value.value).Some?
    ensures r.Some? ==> ParseInt(value.value) == r
  {
    match value
    case None => None
    case Some(v) => ParseInt(v)
  }

  /** The decimal text putInt stores reads back as the stored integer. */
  lemma IntValueReadsDecimal(n: Int32)
    ensures IntValue(Some(Decimal(n))) == Some(n)
  {
    ParseIntDecimal(n);
  }

  function GetInt(a: Args, key: string): (r: Option<Int32>)
    ensures r.Some? ==> key in Keys(a) && ParseInt(Get(a, key).value) == r
    ensures key in Keys(a) && ParseInt(Get(a, key).value).Some? ==> r.Some?
  {
    IntValue(Get(a, key))
  }

  function GetIntOrDefault(a: Args, key: string, default: Int32): (r: Int32)
    ensures key !in Keys(a) ==> r == default
    ensures key in Keys(a) && ParseInt(Get(a, key).value).None? ==> r == default
    ensures key in Keys(a) && ParseInt(Get(a, key).value).Some? ==> r == ParseInt(Get(a, key).value).value
  {
    match GetInt(a, key)
    case Some(n) => n
    case None => default
  }

  /** putInt: stores the decimal text and returns the previous value read as an int. */
  function PutInt(a: Args, key: string, value: Int32): (r: (Args, Option<Int32>))
    ensures GetInt(r.0, key) == Some(value)
    ensures Get(r.0, key) == Some(Decimal(value))
    ensures forall k :: k != key ==> Get(r.0, k) == Get(a, k)
    ensures r.1 == GetInt(a, key)
    ensures DistinctKeys(a) ==> DistinctKeys(r.0)
  {
    ParseIntDecimal(value);
    var (updated, previous) := Put(a, key, Decimal(value));
    (updated, IntValue(previous))
  }

  predicate IsTrueWord(w: string) {
    w == "1" || w == "t" || w == "y" || w == "true" || w == "yes" || w == "on"
  }

  predicate IsFalseWord(w: string) {
    w == "0" || w == "f" || w == "n" || w == "false" || w == "no" || w == "off"
  }

  /** parseBoolean: the case-insensitive yes/no words, null for anything else. */
  function ParseBoolean(value: Option<string>): (r: Option<bool>)
    ensures r == Some(true) <==> value.Some? && exists w :: IsTrueWord(w) && EqualsIgnoreCase(value.value, w)
    ensures r == Some(false) <==> value.Some? && exists w :: IsFalseWord(w) && EqualsIgnoreCase(value.value, w)
  {
    match value
    case None => None
    case Some(v) =>
      var lower := Lower(v);
      LowerMatchesWord(v);
      if IsTrueWord(lower) then Some(true)
      else if IsFalseWord(lower) then Some(false)
      else None
  }

  /** Lower-casing v gives one of the words exactly when v equals that word up to case. */
  lemma LowerMatchesWord(v: string)
    ensures IsTrueWord(Lower(v)) <==> exists w :: IsTrueWord(w) && EqualsIgnoreCase(v, w)
    ensures IsFalseWord(Lower(v)) <==> exists w :: IsFalseWord(w) && EqualsIgnoreCase(v, w)
  {
    forall w | IsTrueWord(w) || IsFalseWord(w)
      ensures EqualsIgnoreCase(v, w) <==> Lower(v) == w
    {
      assert forall j :: 0 <= j < |w| ==> LowerChar(w[j]) == w[j];
    }
  }

  function BooleanText(value: bool): string {
    if value then "y" else "n"
  }

  /** getBoolean: the stored value read as a boolean word, None when the key
      is absent or its value is no boolean word in any letter case. */
  function GetBoolean(a: Args, key: string): (r: Option<bool>)
    ensures key !in Keys(a) ==> r.None?
    ensures r == Some(true) <==> key in Keys(a) && exists w :: IsTrueWord(w) && EqualsIgnoreCase(Get(a, key).value, w)
    ensures r == Some(false) <==> key in Keys(a) && exists w :: IsFalseWord(w) && EqualsIgnoreCase(Get(a, key).value, w)
  {
    ParseBoolean(Get(a, key))
  }

  function GetBooleanOrDefault(a: Args, key: string, default: bool): (r: bool)
    ensures GetBoolean(a, key).None? ==> r == default
    ensures GetBoolean(a, key).Some? ==> r == GetBoolean(a, key).value
  {
    match GetBoolean(a, key)
    case Some(b) => b
    case None => default
  }

  /** putBoolean: stores "y" or "n" and returns the previous value read as a boolean. */
  function PutBoolean(a: Args, key: string, value: bool): (r: (Args, Option<bool>))
    ensures Get(r.0, key) == Some(if value then "y" else "n")
    ensures GetBoolean(r.0, key) == Some(value)
    ensures forall k :: k != key ==> Get(r.0, k) == Get(a, k)
    ensures r.1 == GetBoolean(a, key)
    ensures DistinctKeys(a) ==> DistinctKeys(r.0)
  {
    BooleanTextReadsBack(value);
    var (updated, previous) := Put(a, key, BooleanText(value));
    (updated, ParseBoolean(previous))
  }

  /** The stored word reads back as the stored boolean. */
  lemma BooleanTextReadsBack(value: bool)
    ensures ParseBoolean(Some(BooleanText(value))) == Some(value)
  {
    var t := BooleanText(value);
    assert Lower(t) == t;
  }
}

=== FILE: arguments_proofs.dfy ===
/**
 What the tokenizer does with serialized argument maps and with the inputs it
 rejects: the round trip Parse(Serialize(a)) == Ok(a) under a
 precondition, the duplicate-key failure, and the end-of-input and misplaced
 '=' rules. The lemmas walk the tokenizer through the text one piece at a time
 (whitespace, a key, a value) and then chain the pieces.
 */
module ArgumentsProofs {
  import opened Results
  import opened Text
  import opened OrderedMaps
  import opened Arguments

  /** A value that serializes to text the tokenizer reads back unchanged: a
      value without whitespace must not open with a quote, and a value with
      whitespace must leave one of the two quote characters free. */
  predicate ValueOk(v: string) {
    (!HasWhitespace(v) ==> BareText(v)) && ValueShape(v)
  }

  ghost predicate EntriesOk(a: Args) {
    forall j :: 0 <= j < |a| ==> KeyText(a[j].0) && ValueOk(a[j].1)
  }

  /** The precondition of the round trip. */
  ghost predicate RoundTripSafe(a: Args) {
    DistinctKeys(a) && EntriesOk(a)
  }

  /** The serialized entries, each followed by one space: the text in front of
      one more entry. */
  function Prefix(a: Args): string {
    if |a| == 0 then "" else EntryText(a[0].0, a[0].1) + " " + Prefix(a[1..])
  }

  /** Position n ends a value: the end of input or a whitespace character. */
  predicate AtBoundary(text: string, n: nat) {
    n == |text| || (n < |text| && IsWhitespace(text[n]))
  }

  predicate AllWhitespace(w: string) {
    forall j :: 0 <= j < |w| ==> IsWhitespace(w[j])
  }

  // ---------------------------------------------------------------------------
  // Facts about sequences

  lemma SliceParts(text: string, i: nat, x: string, y: string)
    requires i + |x| + |y| <= |text| && text[i..i + |x| + |y|] == x + y
    ensures text[i..i + |x|] == x
    ensures text[i + |x|..i + |x| + |y|] == y
  {
    assert text[i..i + |x|] == text[i..i + |x| + |y|][..|x|];
    assert text[i + |x|..i + |x| + |y|] == text[i..i + |x| + |y|][|x|..];
  }

  lemma DistinctSnoc(acc: Args, e: (string, string))
    ensures DistinctKeys(acc + [e]) <==> DistinctKeys(acc) && e.0 !in Keys(acc)
  {
    var b := acc + [e];
    if DistinctKeys(b) {
      forall i, j | 0 <= i < j < |acc| ensures acc[i].0 != acc[j].0 {
        assert b[i] == acc[i] && b[j] == acc[j];
      }
      forall i | 0 <= i < |acc| ensures Keys(acc)[i] != e.0 {
        assert b[i] == acc[i] && b[|acc|] == e;
      }
    }
    if DistinctKeys(acc) && e.0 !in Keys(acc) {
      forall i, j | 0 <= i < j < |b| ensures b[i].0 != b[j].0 {
        if j == |acc| {
          assert Keys(acc)[i] == b[i].0;
        } else {
          assert b[i] == acc[i] && b[j] == acc[j];
        }
      }
    }
  }

  lemma PrefixSerialize(a: Args)
    requires |a| > 0
    ensures Prefix(a) == Serialize(a) + " "
    decreases |a|
  {
    var texts := EntryTexts(a);
    if |a| > 1 {
      PrefixSerialize(a[1..]);
      assert texts[1..] == EntryTexts(a[1..]);
      JoinCons(" ", texts);
      SpaceAssoc(texts[0], Serialize(a[1..]));
    }
  }

  lemma SpaceAssoc(x: string, y: string)
    ensures x + " " + (y + " ") == (x + " " + y) + " "
  {
  }


  /** Serializing one more entry appends it after a space. */
  lemma SerializeSnoc(a: Args, e: (string, string))
    ensures Serialize(a + [e]) == Prefix(a) + EntryText(e.0, e.1)
  {
    assert EntryTexts(a + [e]) == EntryTexts(a) + [EntryText(e.0, e.1)];
    if |a| > 0 {
      JoinSnoc(" ", EntryTexts(a), EntryText(e.0, e.1));
      PrefixSerialize(a);
    }
  }

  // ---------------------------------------------------------------------------
  // The tokenizer over one piece of text

  /** A successful step moves the loop on by one character. */
  lemma RunStep(text: string, i: nat, c: Cursor, acc: Args, next: Cursor, acc2: Args)
    requires i < |text| && Bounds(text, i, c) && Step(text, i, c, acc) == Ok((next, acc2))
    ensures Bounds(text, i + 1, next) && Run(text, i, c, acc) == Run(text, i + 1, next, acc2)
  {
    StepKeepsBounds(text, i, c, acc);
  }

  /** A failing step ends the loop with its error. */
  lemma RunStepFails(text: string, i: nat, c: Cursor, acc: Args)
    requires i < |text| && Bounds(text, i, c) && Step(text, i, c, acc).Err?
    ensures Run(text, i, c, acc) == Err(Step(text, i, c, acc).error)
  {
  }

  /** A step that stores a value either fails on a repeated key or moves on
      with the entry appended. */
  lemma RunStore(text: string, i: nat, c: Cursor, acc: Args, key: string, v: string, next: Cursor)
    requires i < |text| && Bounds(text, i, c)
    requires Step(text, i, c, acc) == Continue(Store(acc, key, v, c.keyStart), next)
    ensures key in Keys(acc) ==> Run(text, i, c, acc) == Err(DuplicateKey(c.keyStart))
    ensures key !in Keys(acc) ==>
              Bounds(text, i + 1, next) && Run(text, i, c, acc) == Run(text, i + 1, next, acc + [(key, v)])
  {
    if key !in Keys(acc) {
      RunStep(text, i, c, acc, next, acc + [(key, v)]);
    } else {
      RunStepFails(text, i, c, acc);
    }
  }

  lemma SkipStep(text: string, i: nat, c: Cursor, acc: Args)
    requires i < |text| && Bounds(text, i, c) && c.state.Whitespace? && IsWhitespace(text[i])
    ensures Bounds(text, i + 1, c) && Run(text, i, c, acc) == Run(text, i + 1, c, acc)
  {
    assert Step(text, i, c, acc) == Ok((c, acc));
    RunStep(text, i, c, acc, c, acc);
  }

  lemma EqualsStep(text: string, i: nat, c: Cursor, acc: Args)
    requires i < |text| && Bounds(text, i, c) && c.state.Whitespace? && text[i] == '='
    ensures Run(text, i, c, acc) == Err(UnexpectedEquals(i))
  {
    RunStepFails(text, i, c, acc);
  }

  lemma KeyStartStep(text: string, i: nat, c: Cursor, acc: Args)
    requires i < |text| && Bounds(text, i, c) && c.state.Whitespace?
    requires !IsWhitespace(text[i]) && text[i] != '='
    ensures Bounds(text, i + 1, c.(state := Key, keyStart := i, keyLength := 1))
    ensures Run(text, i, c, acc) == Run(text, i + 1, c.(state := Key, keyStart := i, keyLength := 1), acc)
  {
    RunStep(text, i, c, acc, c.(state := Key, keyStart := i, keyLength := 1), acc);
  }

  lemma KeyStep(text: string, i: nat, c: Cursor, acc: Args)
    requires i < |text| && Bounds(text, i, c) && c.state.Key? && text[i] != '='
    ensures Bounds(text, i + 1, c.(keyLength := c.keyLength + 1))
    ensures Run(text, i, c, acc) == Run(text, i + 1, c.(keyLength := c.keyLength + 1), acc)
  {
    RunStep(text, i, c, acc, c.(keyLength := c.keyLength + 1), acc);
  }

  lemma KeyEndStep(text: string, i: nat, c: Cursor, acc: Args)
    requires i < |text| && Bounds(text, i, c) && c.state.Key? && text[i] == '='
    ensures Bounds(text, i + 1, c.(state := ValueStart))
    ensures Run(text, i, c, acc) == Run(text, i + 1, c.(state := ValueStart), acc)
  {
    RunStep(text, i, c, acc, c.(state := ValueStart), acc);
  }

  /** The value state an opening quote selects. */
  function QuoteState(quote: char): State {
    if quote == '"' then ValueDoubleQuotes else ValueTicks
  }

  lemma QuoteStep(text: string, i: nat, c: Cursor, acc: Args, quote: char)
    requires i < |text| && Bounds(text, i, c) && c.state.ValueStart?
    requires text[i] == quote && (quote == '"' || quote == '\'')
    ensures Bounds(text, i + 1, c.(state := QuoteState(quote), valueStart := i + 1, valueLength := 0))
    ensures Run(text, i, c, acc) == Run(text, i + 1, c.(state := QuoteState(quote), valueStart := i + 1, valueLength := 0), acc)
  {
    RunStep(text, i, c, acc, c.(state := QuoteState(quote), valueStart := i + 1, valueLength := 0), acc);
  }

  lemma SimpleStartStep(text: string, i: nat, c: Cursor, acc: Args)
    requires i < |text| && Bounds(text, i, c) && c.state.ValueStart?
    requires !IsWhitespace(text[i]) && text[i] != '"' && text[i] != '\''
    ensures Bounds(text, i + 1, c.(state := ValueSimple, valueStart := i, valueLength := 1))
    ensures Run(text, i, c, acc) == Run(text, i + 1, c.(state := ValueSimple, valueStart := i, valueLength := 1), acc)
  {
    RunStep(text, i, c, acc, c.(state := ValueSimple, valueStart := i, valueLength := 1), acc);
  }

  lemma EmptyValueStep(text: string, i: nat, c: Cursor, acc: Args)
    requires i < |text| && Bounds(text, i, c) && c.state.ValueStart? && IsWhitespace(text[i])
    ensures Step(text, i, c, acc) == Continue(Store(acc, KeyOf(text, c), "", c.keyStart), c.(state := Whitespace))
  {
  }

  lemma ValueStep(text: string, i: nat, c: Cursor, acc: Args)
    requires i < |text| && Bounds(text, i, c)
    requires c.state.ValueSimple? || c.state.ValueDoubleQuotes? || c.state.ValueTicks?
    requires !Ends(c.state, text[i])
    ensures Bounds(text, i + 1, c.(valueLength := c.valueLength + 1))
    ensures Run(text, i, c, acc) == Run(text, i + 1, c.(valueLength := c.valueLength + 1), acc)
  {
    RunStep(text, i, c, acc, c.(valueLength := c.valueLength + 1), acc);
  }

  lemma ValueEndStep(text: string, i: nat, c: Cursor, acc: Args)
    requires i < |text| && Bounds(text, i, c)
    requires c.state.ValueSimple? || c.state.ValueDoubleQuotes? || c.state.ValueTicks?
    requires c.valueStart + c.valueLength == i && Ends(c.state, text[i])
    ensures Step(text, i, c, acc)
            == Continue(Store(acc, KeyOf(text, c), text[c.valueStart..i], c.keyStart), c.(state := Whitespace))
  {
    assert text[c.valueStart..c.valueStart + c.valueLength] == text[c.valueStart..i];
  }

  /** Whitespace between pairs is skipped. */
  lemma {:induction false} SkipWhitespace(text: string, i: nat, c: Cursor, acc: Args, n: nat)
    requires Bounds(text, i, c) && c.state.Whitespace?
    requires i + n <= |text|
    requires forall j :: i <= j < i + n ==> IsWhitespace(text[j])
    ensures Bounds(text, i + n, c) && Run(text, i, c, acc) == Run(text, i + n, c, acc)
    decreases n
  {
    if n > 0 {
      SkipStep(text, i, c, acc);
      SkipWhitespace(text, i + 1, c, acc, n - 1);
    }
  }

  /** Inside a key every character other than '=' lengthens the key. */
  lemma {:induction false} ReadKeyRest(text: string, c: Cursor, acc: Args, n: nat)
    requires c.state.Key? && Bounds(text, c.keyStart + c.keyLength, c)
    requires c.keyLength <= n && c.keyStart + n <= |text|
    requires '=' !in text[c.keyStart..c.keyStart + n]
    ensures Bounds(text, c.keyStart + n, c.(keyLength := n))
    ensures Run(text, c.keyStart + c.keyLength, c, acc) == Run(text, c.keyStart + n, c.(keyLength := n), acc)
    decreases n - c.keyLength
  {
    var cn := c.(keyLength := n);
    if c.keyLength == n {
      assert cn == c;
    } else {
      var i := c.keyStart + c.keyLength;
      assert text[i] == text[c.keyStart..c.keyStart + n][c.keyLength];
      var c1 := c.(keyLength := c.keyLength + 1);
      KeyStep(text, i, c, acc);
      ReadKeyRest(text, c1, acc, n);
      assert c1.(keyLength := n) == cn;
    }
  }

  /** From the whitespace state, a key is read up to (not including) its '='. */
  lemma ReadKeyText(text: string, i: nat, c: Cursor, acc: Args, k: string) returns (c2: Cursor)
    requires Bounds(text, i, c) && c.state.Whitespace? && KeyText(k)
    requires i + |k| <= |text| && text[i..i + |k|] == k
    ensures c2.state.Key? && c2.keyStart == i && c2.keyLength == |k|
    ensures Bounds(text, i + |k|, c2) && Run(text, i, c, acc) == Run(text, i + |k|, c2, acc)
  {
    assert text[i] == k[0];
    var c1 := c.(state := Key, keyStart := i, keyLength := 1);
    KeyStartStep(text, i, c, acc);
    ReadKeyRest(text, c1, acc, |k|);
    c2 := c1.(keyLength := |k|);
  }

  /** From the whitespace state, `k=` leaves the tokenizer at the value start. */
  lemma ReadKey(text: string, i: nat, c: Cursor, acc: Args, k: string) returns (c2: Cursor)
    requires Bounds(text, i, c) && c.state.Whitespace? && KeyText(k)
    requires i + |k| < |text| && text[i..i + |k|] == k && text[i + |k|] == '='
    ensures c2.state.ValueStart? && c2.keyStart == i && c2.keyLength == |k|
    ensures Bounds(text, i + |k| + 1, c2) && KeyOf(text, c2) == k
    ensures Run(text, i, c, acc) == Run(text, i + |k| + 1, c2, acc)
  {
    var ck := ReadKeyText(text, i, c, acc, k);
    c2 := ck.(state := ValueStart);
    KeyEndStep(text, i + |k|, ck, acc);
  }

  /** No character of text[from..to] ends a value read in this state. */
  predicate NoEnd(text: string, s: State, from: nat, to: nat)
    requires from <= to <= |text|
  {
    forall j :: from <= j < to ==> !Ends(s, text[j])
  }

  lemma NoEndOfSlice(text: string, s: State, from: nat, v: string)
    requires from + |v| <= |text| && text[from..from + |v|] == v
    requires forall j :: 0 <= j < |v| ==> !Ends(s, v[j])
    ensures NoEnd(text, s, from, from + |v|)
  {
    forall j | from <= j < from + |v| ensures !Ends(s, text[j]) {
      assert text[j] == v[j - from];
    }
  }

  /** Inside a value every character that does not end it lengthens it. */
  lemma {:induction false} ReadValueRest(text: string, c: Cursor, acc: Args, n: nat)
    requires c.state.ValueSimple? || c.state.ValueDoubleQuotes? || c.state.ValueTicks?
    requires Bounds(text, c.valueStart + c.valueLength, c)
    requires c.valueLength <= n && c.valueStart + n <= |text|
    requires NoEnd(text, c.state, c.valueStart + c.valueLength, c.valueStart + n)
    ensures Bounds(text, c.valueStart + n, c.(valueLength := n))
    ensures Run(text, c.valueStart + c.valueLength, c, acc) == Run(text, c.valueStart + n, c.(valueLength := n), acc)
    decreases n - c.valueLength
  {
    var cn := c.(valueLength := n);
    if c.valueLength == n {
      assert cn == c;
    } else {
      var i := c.valueStart + c.valueLength;
      var c1 := c.(valueLength := c.valueLength + 1);
      ValueStep(text, i, c, acc);
      ReadValueRest(text, c1, acc, n);
      assert c1.(valueLength := n) == cn;
    }
  }

  /** An unquoted non-empty value read up to position q, where whitespace or
      the end of input closes it. */
  lemma ReadSimple(text: string, p: nat, c: Cursor, acc: Args, v: string) returns (c2: Cursor)
    requires c.state.ValueStart? && Bounds(text, p, c) && BareText(v) && |v| > 0
    requires p + |v| <= |text| && text[p..p + |v|] == v
    ensures c2.state.ValueSimple? && c2.keyStart == c.keyStart && c2.keyLength == c.keyLength
    ensures c2.valueStart == p && c2.valueLength == |v|
    ensures Bounds(text, p + |v|, c2) && Run(text, p, c, acc) == Run(text, p + |v|, c2, acc)
  {
    assert text[p] == v[0];
    assert text[p + 1..p + |v|] == v[1..];
    assert forall j :: 0 <= j < |v| - 1 ==> v[1..][j] == v[j + 1];
    NoEndOfSlice(text, ValueSimple, p + 1, v[1..]);
    var c1 := c.(state := ValueSimple, valueStart := p, valueLength := 1);
    SimpleStartStep(text, p, c, acc);
    assert Run(text, p, c, acc) == Run(text, p + 1, c1, acc);
    ReadValueRest(text, c1, acc, |v|);
    c2 := c1.(valueLength := |v|);
    assert Run(text, p + 1, c1, acc) == Run(text, p + |v|, c2, acc);
  }

  /** An unquoted (possibly empty) value, ended by whitespace or by the end of input. */
  lemma ReadBare(text: string, p: nat, c: Cursor, acc: Args, v: string) returns (c2: Cursor)
    requires c.state.ValueStart? && Bounds(text, p, c) && BareText(v)
    requires p + |v| <= |text| && text[p..p + |v|] == v
    requires AtBoundary(text, p + |v|)
    ensures c2.state.Whitespace?
    ensures KeyOf(text, c) in Keys(acc) ==> Run(text, p, c, acc) == Err(DuplicateKey(c.keyStart))
    ensures KeyOf(text, c) !in Keys(acc) && p + |v| == |text| ==>
              Run(text, p, c, acc) == Ok(acc + [(KeyOf(text, c), v)])
    ensures KeyOf(text, c) !in Keys(acc) && p + |v| < |text| ==>
              Bounds(text, p + |v| + 1, c2) && Run(text, p, c, acc) == Run(text, p + |v| + 1, c2, acc + [(KeyOf(text, c), v)])
  {
    var key := KeyOf(text, c);
    var q := p + |v|;
    c2 := c.(state := Whitespace);
    if |v| == 0 {
      if q < |text| {
        EmptyValueStep(text, p, c, acc);
        RunStore(text, p, c, acc, key, "", c2);
      }
    } else {
      var cs := ReadSimple(text, p, c, acc, v);
      assert KeyOf(text, cs) == key;
      assert Run(text, p, c, acc) == Run(text, q, cs, acc);
      if q < |text| {
        assert text[cs.valueStart..q] == v;
        ValueEndStep(text, q, cs, acc);
        c2 := cs.(state := Whitespace);
        RunStore(text, q, cs, acc, key, v, c2);
      } else {
        assert text[cs.valueStart..] == v;
        EndRun(text, cs, acc);
      }
    }
  }

  /** A value between two quote characters that it does not contain. */
  lemma ReadQuoted(text: string, p: nat, c: Cursor, acc: Args, quote: char, v: string) returns (c2: Cursor)
    requires c.state.ValueStart? && Bounds(text, p, c)
    requires (quote == '"' || quote == '\'') && quote !in v
    requires p + |v| + 2 <= |text| && text[p] == quote && text[p + 1..p + 1 + |v|] == v && text[p + 1 + |v|] == quote
    ensures c2.state.Whitespace?
    ensures KeyOf(text, c) in Keys(acc) ==> Run(text, p, c, acc) == Err(DuplicateKey(c.keyStart))
    ensures KeyOf(text, c) !in Keys(acc) ==>
              Bounds(text, p + |v| + 2, c2) && Run(text, p, c, acc) == Run(text, p + |v| + 2, c2, acc + [(KeyOf(text, c), v)])
  {
    var q := p + 1 + |v|;
    var cs := ReadOpenQuote(text, p, c, acc, quote, v);
    assert Run(text, p, c, acc) == Run(text, q, cs, acc);
    c2 := cs.(state := Whitespace);
    ValueEndStep(text, q, cs, acc);
    RunStore(text, q, cs, acc, KeyOf(text, c), v, c2);
  }

  /** An opening quote and a run of characters other than that quote. */
  lemma ReadOpenQuote(text: string, p: nat, c: Cursor, acc: Args, quote: char, v: string) returns (cs: Cursor)
    requires c.state.ValueStart? && Bounds(text, p, c)
    requires (quote == '"' || quote == '\'') && quote !in v
    requires p + |v| + 1 <= |text| && text[p] == quote && text[p + 1..p + 1 + |v|] == v
    ensures cs.state == QuoteState(quote) && cs.keyStart == c.keyStart && cs.keyLength == c.keyLength
    ensures cs.valueStart == p + 1 && cs.valueLength == |v| && KeyOf(text, cs) == KeyOf(text, c)
    ensures text[cs.valueStart..p + 1 + |v|] == v
    ensures Bounds(text, p + 1 + |v|, cs) && Run(text, p, c, acc) == Run(text, p + 1 + |v|, cs, acc)
    ensures p + 1 + |v| < |text| && text[p + 1 + |v|] == quote ==> Ends(cs.state, text[p + 1 + |v|])
  {
    NoEndOfSlice(text, QuoteState(quote), p + 1, v);
    var c1 := c.(state := QuoteState(quote), valueStart := p + 1, valueLength := 0);
    QuoteStep(text, p, c, acc, quote);
    assert Run(text, p, c, acc) == Run(text, p + 1, c1, acc);
    ReadValueRest(text, c1, acc, |v|);
    cs := c1.(valueLength := |v|);
    assert Run(text, p + 1, c1, acc) == Run(text, p + 1 + |v|, cs, acc);
  }

  /** The pieces of a serialized entry found in the input. */
  lemma EntryParts(text: string, i: nat, k: string, v: string)
    requires i + |EntryText(k, v)| <= |text| && text[i..i + |EntryText(k, v)|] == EntryText(k, v)
    ensures i + |EntryText(k, v)| == i + |k| + 1 + |ValueToString(v)|
    ensures text[i..i + |k|] == k && text[i + |k|] == '='
    ensures text[i + |k| + 1..i + |EntryText(k, v)|] == ValueToString(v)
  {
    SliceParts(text, i, k + "=", ValueToString(v));
    SliceParts(text, i, k, "=");
  }

  /** One serialized entry, followed by whitespace or by the end of input. */
  lemma ReadEntry(text: string, i: nat, c: Cursor, acc: Args, k: string, v: string) returns (c2: Cursor)
    requires Bounds(text, i, c) && c.state.Whitespace? && KeyText(k) && ValueOk(v)
    requires i + |EntryText(k, v)| <= |text| && text[i..i + |EntryText(k, v)|] == EntryText(k, v)
    requires AtBoundary(text, i + |EntryText(k, v)|)
    ensures c2.state.Whitespace?
    ensures k in Keys(acc) ==> Run(text, i, c, acc) == Err(DuplicateKey(i))
    ensures k !in Keys(acc) && i + |EntryText(k, v)| == |text| ==> Run(text, i, c, acc) == Ok(acc + [(k, v)])
    ensures k !in Keys(acc) && i + |EntryText(k, v)| < |text| ==>
              Bounds(text, i + |EntryText(k, v)| + 1, c2)
              && Run(text, i, c, acc) == Run(text, i + |EntryText(k, v)| + 1, c2, acc + [(k, v)])
  {
    EntryParts(text, i, k, v);
    var p := i + |k| + 1;
    var cv := ReadKey(text, i, c, acc, k);
    assert Run(text, i, c, acc) == Run(text, p, cv, acc);
    if !HasWhitespace(v) {
      c2 := ReadBare(text, p, cv, acc, v);
    } else {
      c2 := ReadEnclosed(text, p, cv, acc, v);
    }
  }

  /** A value with whitespace, as the serializer quotes it, followed by
      whitespace or by the end of input. */
  lemma ReadEnclosed(text: string, p: nat, c: Cursor, acc: Args, v: string) returns (c2: Cursor)
    requires c.state.ValueStart? && Bounds(text, p, c) && HasWhitespace(v) && ValueShape(v)
    requires p + |ValueToString(v)| <= |text| && text[p..p + |ValueToString(v)|] == ValueToString(v)
    requires AtBoundary(text, p + |ValueToString(v)|)
    ensures c2.state.Whitespace?
    ensures KeyOf(text, c) in Keys(acc) ==> Run(text, p, c, acc) == Err(DuplicateKey(c.keyStart))
    ensures KeyOf(text, c) !in Keys(acc) && p + |ValueToString(v)| == |text| ==>
              Run(text, p, c, acc) == Ok(acc + [(KeyOf(text, c), v)])
    ensures KeyOf(text, c) !in Keys(acc) && p + |ValueToString(v)| < |text| ==>
              Bounds(text, p + |ValueToString(v)| + 1, c2)
              && Run(text, p, c, acc) == Run(text, p + |ValueToString(v)| + 1, c2, acc + [(KeyOf(text, c), v)])
  {
    var q := p + |ValueToString(v)|;
    var entry := acc + [(KeyOf(text, c), v)];
    c2 := ReadQuotedValue(text, p, c, acc, v);
    if KeyOf(text, c) !in Keys(acc) {
      assert Run(text, p, c, acc) == Run(text, q, c2, entry);
      if q < |text| {
        SkipStep(text, q, c2, entry);
      } else {
        EndRun(text, c2, entry);
      }
    }
  }

  /** A value with whitespace, as the serializer quotes it. */
  lemma ReadQuotedValue(text: string, p: nat, c: Cursor, acc: Args, v: string) returns (c2: Cursor)
    requires c.state.ValueStart? && Bounds(text, p, c) && HasWhitespace(v) && ValueShape(v)
    requires p + |ValueToString(v)| <= |text| && text[p..p + |ValueToString(v)|] == ValueToString(v)
    ensures c2.state.Whitespace?
    ensures KeyOf(text, c) in Keys(acc) ==> Run(text, p, c, acc) == Err(DuplicateKey(c.keyStart))
    ensures KeyOf(text, c) !in Keys(acc) ==>
              Bounds(text, p + |ValueToString(v)|, c2)
              && Run(text, p, c, acc) == Run(text, p + |ValueToString(v)|, c2, acc + [(KeyOf(text, c), v)])
  {
    var quote := QuotedParts(text, p, v);
    c2 := ReadQuoted(text, p, c, acc, quote, v);
  }

  /** The pieces of a quoted value found in the input. */
  lemma QuotedParts(text: string, p: nat, v: string) returns (quote: char)
    requires HasWhitespace(v) && ValueShape(v)
    requires p + |ValueToString(v)| <= |text| && text[p..p + |ValueToString(v)|] == ValueToString(v)
    ensures (quote == '"' || quote == '\'') && quote !in v && |ValueToString(v)| == |v| + 2
    ensures text[p] == quote && text[p + 1..p + 1 + |v|] == v && text[p + 1 + |v|] == quote
  {
    quote := if '"' in v then '\'' else '"';
    var r := ValueToString(v);
    assert r == [quote] + v + [quote];
    SliceParts(text, p, [quote], v + [quote]);
    SliceParts(text, p + 1, v, [quote]);
  }

  /** Several serialized entries, each followed by a space. */
  lemma {:induction false} ReadPrefix(text: string, i: nat, c: Cursor, acc: Args, a: Args) returns (c2: Cursor)
    requires Bounds(text, i, c) && c.state.Whitespace? && EntriesOk(a) && DistinctKeys(acc)
    requires i + |Prefix(a)| <= |text| && text[i..i + |Prefix(a)|] == Prefix(a)
    ensures c2.state.Whitespace?
    ensures DistinctKeys(acc + a) ==>
              Bounds(text, i + |Prefix(a)|, c2) && Run(text, i, c, acc) == Run(text, i + |Prefix(a)|, c2, acc + a)
    ensures !DistinctKeys(acc + a) ==> Run(text, i, c, acc).Err? && Run(text, i, c, acc).error.DuplicateKey?
    decreases |a|
  {
    if |a| == 0 {
      c2 := c;
      assert acc + a == acc;
    } else {
      var e := a[0];
      var entry := EntryText(e.0, e.1);
      PrefixParts(text, i, a);
      EntriesOkTail(a);
      var j := i + |entry| + 1;
      var c1 := ReadEntry(text, i, c, acc, e.0, e.1);
      DistinctSnoc(acc, e);
      AppendCons(acc, a);
      if e.0 in Keys(acc) {
        c2 := c1;
        NotDistinctPrefix(acc + [e], a[1..]);
      } else {
        assert Run(text, i, c, acc) == Run(text, j, c1, acc + [e]);
        c2 := ReadPrefix(text, j, c1, acc + [e], a[1..]);
        if DistinctKeys(acc + a) {
          assert Run(text, j, c1, acc + [e]) == Run(text, i + |Prefix(a)|, c2, acc + a);
        }
      }
    }
  }

  /** The pieces of a serialized prefix found in the input: the first entry,
      a space, and the prefix of the other entries. Each piece is its own
      lemma so that each proof sees one goal. */
  lemma PrefixParts(text: string, i: nat, a: Args)
    requires |a| > 0
    requires i + |Prefix(a)| <= |text| && text[i..i + |Prefix(a)|] == Prefix(a)
    ensures |Prefix(a)| == |EntryText(a[0].0, a[0].1)| + 1 + |Prefix(a[1..])|
    ensures text[i..i + |EntryText(a[0].0, a[0].1)|] == EntryText(a[0].0, a[0].1)
    ensures text[i + |EntryText(a[0].0, a[0].1)|] == ' '
    ensures text[i + |EntryText(a[0].0, a[0].1)| + 1..i + |Prefix(a)|] == Prefix(a[1..])
  {
    PrefixHead(text, i, a);
    PrefixTail(text, i, a);
  }

  lemma PrefixHead(text: string, i: nat, a: Args)
    requires |a| > 0
    requires i + |Prefix(a)| <= |text| && text[i..i + |Prefix(a)|] == Prefix(a)
    ensures |Prefix(a)| == |EntryText(a[0].0, a[0].1)| + 1 + |Prefix(a[1..])|
    ensures text[i..i + |EntryText(a[0].0, a[0].1)|] == EntryText(a[0].0, a[0].1)
    ensures text[i + |EntryText(a[0].0, a[0].1)|] == ' '
  {
    PrefixCons(a);
    SpaceSlices(text, i, Prefix(a), EntryText(a[0].0, a[0].1), Prefix(a[1..]));
  }

  lemma PrefixTail(text: string, i: nat, a: Args)
    requires |a| > 0
    requires i + |Prefix(a)| <= |text| && text[i..i + |Prefix(a)|] == Prefix(a)
    ensures |Prefix(a)| == |EntryText(a[0].0, a[0].1)| + 1 + |Prefix(a[1..])|
    ensures text[i + |EntryText(a[0].0, a[0].1)| + 1..i + |Prefix(a)|] == Prefix(a[1..])
  {
    PrefixCons(a);
    SpaceSlices(text, i, Prefix(a), EntryText(a[0].0, a[0].1), Prefix(a[1..]));
  }

  lemma PrefixCons(a: Args)
    requires |a| > 0
    ensures Prefix(a) == EntryText(a[0].0, a[0].1) + " " + Prefix(a[1..])
  {
  }

  lemma SpaceSlices(text: string, i: nat, whole: string, x: string, y: string)
    requires whole == x + " " + y
    requires i + |whole| <= |text| && text[i..i + |whole|] == whole
    ensures |whole| == |x| + 1 + |y|
    ensures text[i..i + |x|] == x && text[i + |x|] == ' '
    ensures text[i + |x| + 1..i + |whole|] == y
  {
    SpaceParts(text, i, x, y);
  }

  lemma SpaceParts(text: string, i: nat, x: string, y: string)
    requires i + |x| + 1 + |y| <= |text| && text[i..i + |x| + 1 + |y|] == x + " " + y
    ensures text[i..i + |x|] == x && text[i + |x|] == ' '
    ensures text[i + |x| + 1..i + |x| + 1 + |y|] == y
  {
    SliceParts(text, i, x + " ", y);
    SliceParts(text, i, x, " ");
  }

  lemma EntriesOkTail(a: Args)
    requires |a| > 0 && EntriesOk(a)
    ensures KeyText(a[0].0) && ValueOk(a[0].1) && EntriesOk(a[1..])
  {
    assert forall j :: 0 <= j < |a| - 1 ==> a[1..][j] == a[j + 1];
  }

  lemma AppendCons(acc: Args, a: Args)
    requires |a| > 0
    ensures acc + a == (acc + [a[0]]) + a[1..]
  {
  }

  lemma NotDistinctPrefix(a: Args, b: Args)
    requires !DistinctKeys(a)
    ensures !DistinctKeys(a + b)
  {
    var i, j :| 0 <= i < j < |a| && a[i].0 == a[j].0;
    assert (a + b)[i] == a[i] && (a + b)[j] == a[j];
  }

  // ---------------------------------------------------------------------------
  // Whole inputs

  lemma ParseIsRun(text: string)
    ensures Parse(text) == Run(text, 0, Start, [])
  {
  }

  lemma EndRun(text: string, c: Cursor, acc: Args)
    requires Bounds(text, |text|, c)
    ensures Run(text, |text|, c, acc) == Finish(text, c, acc)
  {
  }

  /** A non-empty map serializes as the entries before the last, each followed
      by a space, and then the last entry. */
  lemma SerializeLast(a: Args)
    requires |a| > 0 && EntriesOk(a)
    ensures a == a[..|a| - 1] + [a[|a| - 1]]
    ensures EntriesOk(a[..|a| - 1]) && KeyText(a[|a| - 1].0) && ValueOk(a[|a| - 1].1)
    ensures Serialize(a) == Prefix(a[..|a| - 1]) + EntryText(a[|a| - 1].0, a[|a| - 1].1)
    ensures DistinctKeys(a) <==> DistinctKeys(a[..|a| - 1]) && a[|a| - 1].0 !in Keys(a[..|a| - 1])
  {
    SplitLast(a);
    EntriesOkInit(a);
    SerializeSnoc(a[..|a| - 1], a[|a| - 1]);
    DistinctSnoc(a[..|a| - 1], a[|a| - 1]);
  }

  lemma SplitLast(a: Args)
    requires |a| > 0
    ensures a == a[..|a| - 1] + [a[|a| - 1]]
  {
  }

  lemma EntriesOkInit(a: Args)
    requires |a| > 0 && EntriesOk(a)
    ensures EntriesOk(a[..|a| - 1]) && KeyText(a[|a| - 1].0) && ValueOk(a[|a| - 1].1)
  {
    var init := a[..|a| - 1];
    forall j | 0 <= j < |init| ensures KeyText(init[j].0) && ValueOk(init[j].1) {
      assert init[j] == a[j];
    }
  }


  lemma Concat(x: string, y: string)
    ensures (x + y)[..|x|] == x && (x + y)[|x|..] == y
  {
  }

  /** The serialized entries of a map, read from the start of the input. */
  lemma ReadAll(text: string, a: Args) returns (c: Cursor)
    requires EntriesOk(a) && |Prefix(a)| <= |text| && text[..|Prefix(a)|] == Prefix(a)
    ensures c.state.Whitespace?
    ensures DistinctKeys(a) ==> Bounds(text, |Prefix(a)|, c) && Parse(text) == Run(text, |Prefix(a)|, c, a)
    ensures !DistinctKeys(a) ==> Parse(text).Err? && Parse(text).error.DuplicateKey?
  {
    ParseIsRun(text);
    assert text[0..|Prefix(a)|] == text[..|Prefix(a)|];
    assert [] + a == a;
    c := ReadPrefix(text, 0, Start, [], a);
  }

  /** The serialized entries of a map and then `k=`, read from the start of the input. */
  lemma ReadAllThenKey(text: string, a: Args, k: string) returns (c: Cursor)
    requires RoundTripSafe(a) && KeyText(k)
    requires |Prefix(a)| + |k| < |text| && text[..|Prefix(a)| + |k| + 1] == Prefix(a) + k + "="
    ensures c.state.ValueStart? && Bounds(text, |Prefix(a)| + |k| + 1, c) && KeyOf(text, c) == k
    ensures Parse(text) == Run(text, |Prefix(a)| + |k| + 1, c, a)
  {
    var p := Prefix(a);
    KeyParts(text, p, k);
    var c0 := ReadAll(text, a);
    c := ReadKey(text, |p|, c0, a, k);
    assert Parse(text) == Run(text, |p|, c0, a) == Run(text, |p| + |k| + 1, c, a);
  }

  /** The pieces of a text that starts with p, then k, then '='. */
  lemma KeyParts(text: string, p: string, k: string)
    requires |p| + |k| < |text| && text[..|p| + |k| + 1] == p + k + "="
    ensures text[..|p|] == p && text[|p|..|p| + |k|] == k && text[|p| + |k|] == '='
  {
    var n := |p| + |k| + 1;
    assert text[0..n] == text[..n];
    SliceParts(text, 0, p, k + "=");
    SliceParts(text, |p|, k, "=");
    assert text[..|p|] == text[0..|p|];
  }


  /** The serialized entries of a map and then the entry (k, v), read from the
      start of the input, when whitespace or the end of input follows. */
  lemma ReadAllThenEntry(text: string, a: Args, k: string, v: string) returns (c: Cursor)
    requires EntriesOk(a) && KeyText(k) && ValueOk(v)
    requires |Prefix(a)| + |EntryText(k, v)| <= |text|
    requires text[..|Prefix(a)| + |EntryText(k, v)|] == Prefix(a) + EntryText(k, v)
    requires AtBoundary(text, |Prefix(a)| + |EntryText(k, v)|)
    ensures c.state.Whitespace?
    ensures !DistinctKeys(a + [(k, v)]) ==> Parse(text).Err? && Parse(text).error.DuplicateKey?
    ensures DistinctKeys(a + [(k, v)]) && |Prefix(a)| + |EntryText(k, v)| == |text| ==>
              Parse(text) == Ok(a + [(k, v)])
    ensures DistinctKeys(a + [(k, v)]) && |Prefix(a)| + |EntryText(k, v)| < |text| ==>
              Bounds(text, |Prefix(a)| + |EntryText(k, v)| + 1, c)
              && Parse(text) == Run(text, |Prefix(a)| + |EntryText(k, v)| + 1, c, a + [(k, v)])
  {
    var p, e := Prefix(a), EntryText(k, v);
    HeadParts(text, p, e);
    DistinctSnoc(a, (k, v));
    c := ReadAll(text, a);
    if DistinctKeys(a) {
      c := ReadEntryAfter(text, a, k, v, c);
    }
  }

  /** The last entry, read after the ones before it. */
  lemma ReadEntryAfter(text: string, a: Args, k: string, v: string, c0: Cursor) returns (c: Cursor)
    requires KeyText(k) && ValueOk(v) && c0.state.Whitespace?
    requires Bounds(text, |Prefix(a)|, c0) && Parse(text) == Run(text, |Prefix(a)|, c0, a)
    requires |Prefix(a)| + |EntryText(k, v)| <= |text|
    requires text[|Prefix(a)|..|Prefix(a)| + |EntryText(k, v)|] == EntryText(k, v)
    requires AtBoundary(text, |Prefix(a)| + |EntryText(k, v)|)
    ensures c.state.Whitespace?
    ensures k in Keys(a) ==> Parse(text) == Err(DuplicateKey(|Prefix(a)|))
    ensures k !in Keys(a) && |Prefix(a)| + |EntryText(k, v)| == |text| ==> Parse(text) == Ok(a + [(k, v)])
    ensures k !in Keys(a) && |Prefix(a)| + |EntryText(k, v)| < |text| ==>
              Bounds(text, |Prefix(a)| + |EntryText(k, v)| + 1, c)
              && Parse(text) == Run(text, |Prefix(a)| + |EntryText(k, v)| + 1, c, a + [(k, v)])
  {
    c := ReadEntry(text, |Prefix(a)|, c0, a, k, v);
  }

  lemma HeadParts(text: string, x: string, y: string)
    requires |x| + |y| <= |text| && text[..|x| + |y|] == x + y
    ensures text[..|x|] == x && text[|x|..|x| + |y|] == y
  {
    assert text[..|x|] == text[..|x| + |y|][..|x|];
    assert text[|x|..|x| + |y|] == text[..|x| + |y|][|x|..];
  }

  /** Serialized maps parse back: unchanged and in order when the keys are
      distinct, and with a duplicate-key failure when one repeats, whichever
      value form (bare, empty, double- or single-quoted) completes it. */
  lemma ParseSerialized(a: Args)
    requires EntriesOk(a)
    ensures DistinctKeys(a) ==> Parse(Serialize(a)) == Ok(a)
    ensures !DistinctKeys(a) ==> Parse(Serialize(a)).Err? && Parse(Serialize(a)).error.DuplicateKey?
  {
    if |a| == 0 {
      assert Serialize(a) == "";
      ParseEmpty();
    } else {
      ParseSerializedLast(a);
    }
  }

  /** The empty input is the empty map. */
  lemma ParseEmpty()
    ensures Parse("") == Ok([])
  {
    ParseIsRun("");
    EndRun("", Start, []);
  }

  lemma ParseSerializedLast(a: Args)
    requires EntriesOk(a) && |a| > 0
    ensures DistinctKeys(a) ==> Parse(Serialize(a)) == Ok(a)
    ensures !DistinctKeys(a) ==> Parse(Serialize(a)).Err? && Parse(Serialize(a)).error.DuplicateKey?
  {
    SerializeLast(a);
    ParseEntries(a[..|a| - 1], a[|a| - 1].0, a[|a| - 1].1);
  }

  lemma ParseEntries(init: Args, k: string, v: string)
    requires EntriesOk(init) && KeyText(k) && ValueOk(v)
    ensures DistinctKeys(init + [(k, v)]) ==> Parse(Prefix(init) + EntryText(k, v)) == Ok(init + [(k, v)])
    ensures !DistinctKeys(init + [(k, v)]) ==>
              Parse(Prefix(init) + EntryText(k, v)).Err? && Parse(Prefix(init) + EntryText(k, v)).error.DuplicateKey?
  {
    var text := Prefix(init) + EntryText(k, v);
    assert text[..|text|] == text;
    var c := ReadAllThenEntry(text, init, k, v);
  }

  /** The round trip: Parse(Serialize(a)) == Ok(a), order included. */
  lemma RoundTrip(a: Args)
    requires RoundTripSafe(a)
    ensures Parse(Serialize(a)) == Ok(a)
  {
    ParseSerialized(a);
  }

  /** A serialized map followed by whitespace leaves the tokenizer between
      pairs, with the whole map read. */
  lemma ReadSerialized(text: string, a: Args) returns (c: Cursor)
    requires RoundTripSafe(a) && |a| > 0
    requires |Serialize(a)| < |text| && text[..|Serialize(a)|] == Serialize(a) && IsWhitespace(text[|Serialize(a)|])
    ensures c.state.Whitespace? && Bounds(text, |Serialize(a)| + 1, c)
    ensures Parse(text) == Run(text, |Serialize(a)| + 1, c, a)
  {
    SerializeLast(a);
    var init := a[..|a| - 1];
    var last := a[|a| - 1];
    c := ReadAllThenEntry(text, init, last.0, last.1);
  }

  /** An '=' where a key should start fails: at the very start of the input or
      after the whitespace that follows a pair. */
  lemma EqualsAfterWhitespaceFails(a: Args, w: string, rest: string)
    requires RoundTripSafe(a) && AllWhitespace(w) && (|a| == 0 || |w| > 0)
    ensures Parse(Serialize(a) + w + "=" + rest) == Err(UnexpectedEquals(|Serialize(a)| + |w|))
  {
    var s := Serialize(a);
    var text := s + w + "=" + rest;
    var n := |s| + |w|;
    assert text[n] == '=';
    assert forall j :: |s| <= j < n ==> text[j] == w[j - |s|];
    if |a| == 0 {
      ParseIsRun(text);
      SkipWhitespace(text, 0, Start, [], |w|);
      EqualsStep(text, n, Start, []);
    } else {
      assert text[..|s|] == s;
      var c := ReadSerialized(text, a);
      SkipWhitespace(text, |s| + 1, c, a, |w| - 1);
      EqualsStep(text, n, c, a);
    }
  }

  /** An '=' right after a quoted value fails: a closing quote ends the pair. */
  lemma EqualsAfterQuoteFails(a: Args, rest: string)
    requires RoundTripSafe(a) && |a| > 0 && HasWhitespace(a[|a| - 1].1)
    ensures Parse(Serialize(a) + "=" + rest) == Err(UnexpectedEquals(|Serialize(a)|))
  {
    SerializeLast(a);
    var init := a[..|a| - 1];
    var k := a[|a| - 1].0;
    var v := a[|a| - 1].1;
    DistinctSnoc(init, (k, v));
    EqualsAfterEntry(init, k, v, rest);
  }

  lemma EqualsAfterEntry(a: Args, k: string, v: string, rest: string)
    requires RoundTripSafe(a) && KeyText(k) && k !in Keys(a) && HasWhitespace(v) && ValueShape(v)
    ensures Parse(Prefix(a) + (k + "=" + ValueToString(v)) + "=" + rest)
            == Err(UnexpectedEquals(|Prefix(a)| + |k| + 1 + |ValueToString(v)|))
  {
    var p, value := Prefix(a), ValueToString(v);
    EqualsTail(p, k, value, rest);
    EqualsAfterQuoted(p + (k + "=" + value) + "=" + rest, a, k, v, |p| + |k| + 1);
  }

  /** Where the pieces of `p + k + "=" + value + "=" + rest` stand. */
  lemma EqualsTail(p: string, k: string, value: string, rest: string)
    ensures var n := |p| + |k| + 1;
      var text := p + (k + "=" + value) + "=" + rest;
      && |text| == n + |value| + 1 + |rest|
      && text[..n] == p + k + "="
      && text[n..n + |value|] == value
      && text[n + |value|] == '='
  {
    var text := p + (k + "=" + value) + "=" + rest;
    assert text == (p + k + "=") + (value + "=" + rest);
  }

  lemma EqualsAfterQuoted(text: string, a: Args, k: string, v: string, n: nat)
    requires RoundTripSafe(a) && KeyText(k) && k !in Keys(a) && HasWhitespace(v) && ValueShape(v)
    requires n == |Prefix(a)| + |k| + 1 && n + |ValueToString(v)| < |text|
    requires text[..n] == Prefix(a) + k + "="
    requires text[n..n + |ValueToString(v)|] == ValueToString(v) && text[n + |ValueToString(v)|] == '='
    ensures Parse(text) == Err(UnexpectedEquals(n + |ValueToString(v)|))
  {
    var cv := ReadAllThenKey(text, a, k);
    QuotedThenEquals(text, n, cv, a, v);
  }

  lemma QuotedThenEquals(text: string, p: nat, c: Cursor, acc: Args, v: string)
    requires c.state.ValueStart? && Bounds(text, p, c) && KeyOf(text, c) !in Keys(acc)
    requires HasWhitespace(v) && ValueShape(v)
    requires p + |ValueToString(v)| < |text| && text[p..p + |ValueToString(v)|] == ValueToString(v)
    requires text[p + |ValueToString(v)|] == '='
    ensures Run(text, p, c, acc) == Err(UnexpectedEquals(p + |ValueToString(v)|))
  {
    var e := p + |ValueToString(v)|;
    var c2 := ReadQuotedValue(text, p, c, acc, v);
    var b := acc + [(KeyOf(text, c), v)];
    assert Run(text, p, c, acc) == Run(text, e, c2, b);
    EqualsStep(text, e, c2, b);
  }

  /** Input that ends inside a key (no '=' yet) fails. */
  lemma EndInsideKeyFails(a: Args, k: string)
    requires RoundTripSafe(a) && KeyText(k)
    ensures Parse(Prefix(a) + k) == Err(UnexpectedEnd)
  {
    Concat(Prefix(a), k);
    EndInKey(Prefix(a) + k, a, k);
  }

  lemma EndInKey(text: string, a: Args, k: string)
    requires RoundTripSafe(a) && KeyText(k)
    requires |text| == |Prefix(a)| + |k| && text[..|Prefix(a)|] == Prefix(a) && text[|Prefix(a)|..] == k
    ensures Parse(text) == Err(UnexpectedEnd)
  {
    var p := |Prefix(a)|;
    assert text[p..p + |k|] == k;
    var c := ReadAll(text, a);
    var ck := ReadKeyText(text, p, c, a, k);
    assert Parse(text) == Run(text, |text|, ck, a);
    EndRun(text, ck, a);
  }

  /** Input that ends inside an unclosed quote fails. */
  lemma UnterminatedQuoteFails(a: Args, k: string, quote: char, v: string)
    requires RoundTripSafe(a) && KeyText(k)
    requires (quote == '"' || quote == '\'') && quote !in v
    ensures Parse(Prefix(a) + k + "=" + [quote] + v) == Err(UnexpectedEnd)
  {
    var head := Prefix(a) + k + "=";
    assert Prefix(a) + k + "=" + [quote] + v == head + ([quote] + v);
    Concat(head, [quote] + v);
    EndInQuote(head + ([quote] + v), a, k, quote, v);
  }

  lemma EndInQuote(text: string, a: Args, k: string, quote: char, v: string)
    requires RoundTripSafe(a) && KeyText(k)
    requires (quote == '"' || quote == '\'') && quote !in v
    requires |text| == |Prefix(a)| + |k| + 2 + |v|
    requires text[..|Prefix(a)| + |k| + 1] == Prefix(a) + k + "="
    requires text[|Prefix(a)| + |k| + 1..] == [quote] + v
    ensures Parse(text) == Err(UnexpectedEnd)
  {
    var n := |Prefix(a)| + |k| + 1;
    assert text[n] == quote && text[n + 1..n + 1 + |v|] == v;
    var cv := ReadAllThenKey(text, a, k);
    var cs := ReadOpenQuote(text, n, cv, a, quote, v);
    assert Parse(text) == Run(text, |text|, cs, a);
    EndRun(text, cs, a);
  }

  /** Input that ends right after '=' stores an empty value, and input that ends
      inside an unquoted value stores the rest of the input. */
  lemma EndInsideValueStores(a: Args, k: string, v: string)
    requires RoundTripSafe(a) && KeyText(k) && k !in Keys(a) && BareText(v)
    ensures Parse(Prefix(a) + k + "=" + v) == Ok(a + [(k, v)])
  {
    assert EntryText(k, v) == k + "=" + v;
    assert Prefix(a) + k + "=" + v == Prefix(a) + EntryText(k, v);
    DistinctSnoc(a, (k, v));
    ParseEntries(a, k, v);
  }
}

=== FILE: links.dfy ===
/**
 The two tables the main panel builds from pactl's listings: sources (or
 sinks) by index, and the loopback links as source index -> sink index ->
 the loopback module joining them.
 */
module Links {
  import opened Results
  import opened Text
  import opened OrderedMaps
  import opened Arguments
  import opened PactlModules
  import opened Pactl

  // ---------------------------------------------------------------------------
  // loadSourcesOrSinks

  /** The listing as (index, entry) pairs in listing order: the map one would
      get by keeping every entry, duplicates included. */
  function Pairs(items: seq<SourceOrSink>): (p: seq<(Int32, SourceOrSink)>)
    ensures |p| == |items| && forall j :: 0 <= j < |items| ==> p[j] == (items[j].index, items[j])
  {
    seq(|items|, j requires 0 <= j < |items| => (items[j].index, items[j]))
  }

  /** loadSourcesOrSinks: a LinkedHashMap from index to entry; a repeated
      index keeps its first position and takes the later entry. */
  function LoadSourcesOrSinks(items: seq<SourceOrSink>): (m: seq<(Int32, SourceOrSink)>)
    ensures DistinctKeys(m)
    decreases |items|
  {
    if |items| == 0 then []
    else
      var last := items[|items| - 1];
      Put(LoadSourcesOrSinks(items[..|items| - 1]), last.index, last).0
  }

  /** The map holds exactly the indices of the listing. */
  lemma {:induction false} SourcesOrSinksKeys(items: seq<SourceOrSink>, k: Int32)
    ensures k in Keys(LoadSourcesOrSinks(items)) <==> k in Keys(Pairs(items))
    decreases |items|
  {
    if |items| > 0 {
      var init, last := items[..|items| - 1], items[|items| - 1];
      SourcesOrSinksKeys(init, k);
      PutKeys(LoadSourcesOrSinks(init), last.index, last, k);
      PairsKeys(items, k);
    }
  }

  /** After a put the keys are the old ones and the key put. */
  lemma PutKeys<K(!new), V>(m: seq<(K, V)>, key: K, value: V, k: K)
    ensures k in Keys(Put(m, key, value).0) <==> k == key || k in Keys(m)
  {
    if k != key {
      assert Get(Put(m, key, value).0, k) == Get(m, k);
    }
  }

  /** The indices of a listing are those before the last entry and the last one. */
  lemma PairsKeys(items: seq<SourceOrSink>, k: Int32)
    requires |items| > 0
    ensures k in Keys(Pairs(items)) <==> k == items[|items| - 1].index || k in Keys(Pairs(items[..|items| - 1]))
  {
    var init, last := items[..|items| - 1], items[|items| - 1];
    assert items == init + [last];
    PairsSnoc(init, last);
    assert Keys(Pairs(items)) == Keys(Pairs(init)) + [last.index];
  }

  /** Each index maps to the last entry listed with it. */
  lemma {:induction false} SourcesOrSinksLastWins(items: seq<SourceOrSink>, j: nat)
    requires j < |items|
    requires forall i :: j < i < |items| ==> items[i].index != items[j].index
    ensures Get(LoadSourcesOrSinks(items), items[j].index) == Some(items[j])
    decreases |items|
  {
    var init, last := items[..|items| - 1], items[|items| - 1];
    if j < |items| - 1 {
      SourcesOrSinksLastWins(init, j);
    }
  }

  /** The keys appear in the order of their first occurrence in the listing. */
  lemma {:induction false} SourcesOrSinksOrder(items: seq<SourceOrSink>, p: nat, q: nat)
    requires p < q < |LoadSourcesOrSinks(items)|
    ensures var m := LoadSourcesOrSinks(items);
      && Find(Pairs(items), m[p].0).Some? && Find(Pairs(items), m[q].0).Some?
      && Find(Pairs(items), m[p].0).value < Find(Pairs(items), m[q].0).value
    decreases |items|
  {
    var init := items[..|items| - 1];
    if q < |LoadSourcesOrSinks(init)| {
      SourcesOrSinksOrder(init, p, q);
      OrderKept(items, p, q);
    } else {
      OrderNew(items, p, q);
    }
  }

  /** Two keys already present keep their relative order. */
  lemma OrderKept(items: seq<SourceOrSink>, p: nat, q: nat)
    requires |items| > 0
    requires var init := items[..|items| - 1]; var m0 := LoadSourcesOrSinks(init);
      && p < q < |m0|
      && Find(Pairs(init), m0[p].0).Some? && Find(Pairs(init), m0[q].0).Some?
      && Find(Pairs(init), m0[p].0).value < Find(Pairs(init), m0[q].0).value
    ensures var m := LoadSourcesOrSinks(items);
      && q < |m|
      && Find(Pairs(items), m[p].0).Some? && Find(Pairs(items), m[q].0).Some?
      && Find(Pairs(items), m[p].0).value < Find(Pairs(items), m[q].0).value
  {
    KeptPosition(items, p);
    KeptPosition(items, q);
  }

  /** A key present before the last entry comes before the key that entry adds. */
  lemma OrderNew(items: seq<SourceOrSink>, p: nat, q: nat)
    requires |items| > 0
    requires p < q < |LoadSourcesOrSinks(items)| && |LoadSourcesOrSinks(items[..|items| - 1])| <= q
    ensures var m := LoadSourcesOrSinks(items);
      && Find(Pairs(items), m[p].0).Some? && Find(Pairs(items), m[q].0).Some?
      && Find(Pairs(items), m[p].0).value < Find(Pairs(items), m[q].0).value
  {
    var init := items[..|items| - 1];
    var m0, m := LoadSourcesOrSinks(init), LoadSourcesOrSinks(items);
    NewPosition(items);
    assert q == |m0|;
    KeptPosition(items, p);
    assert Find(Pairs(items), m[q].0) == Some(|init|);
    assert Find(Pairs(items), m[p].0) == Find(Pairs(init), m0[p].0);
  }

  /** Adding an entry leaves the keys already present where they were, and
      found where they were found. */
  lemma KeptPosition(items: seq<SourceOrSink>, p: nat)
    requires |items| > 0 && p < |LoadSourcesOrSinks(items[..|items| - 1])|
    ensures var init := items[..|items| - 1];
      var m0, m := LoadSourcesOrSinks(init), LoadSourcesOrSinks(items);
      && p < |m| && m[p].0 == m0[p].0
      && Find(Pairs(init), m0[p].0).Some? && Find(Pairs(init), m0[p].0).value < |init|
      && Find(Pairs(items), m0[p].0) == Find(Pairs(init), m0[p].0)
  {
    var init, last := items[..|items| - 1], items[|items| - 1];
    var m0 := LoadSourcesOrSinks(init);
    PutKeepsPosition(m0, last.index, last, p);
    SourcesOrSinksKeys(init, m0[p].0);
    KeptFind(items, m0[p].0);
  }

  /** Put leaves every existing key at its position. */
  lemma PutKeepsPosition<K(!new), V>(m: seq<(K, V)>, key: K, value: V, p: nat)
    requires p < |m|
    ensures var r := Put(m, key, value).0; p < |r| && r[p].0 == m[p].0
  {
    var r := Put(m, key, value).0;
    if key in Keys(m) {
      assert Keys(r)[p] == Keys(m)[p];
    } else {
      assert r[p] == m[p];
    }
  }

  /** The first position of a key listed before the last entry does not move. */
  lemma KeptFind(items: seq<SourceOrSink>, k: Int32)
    requires |items| > 0 && k in Keys(Pairs(items[..|items| - 1]))
    ensures Find(Pairs(items), k) == Find(Pairs(items[..|items| - 1]), k)
  {
    var init, last := items[..|items| - 1], items[|items| - 1];
    assert items == init + [last];
    PairsSnoc(init, last);
    FindInPrefix(Pairs(init), [(last.index, last)], k);
  }

  /** An entry that grows the map puts its index last, found at its own
      position, after every key already present. */
  lemma NewPosition(items: seq<SourceOrSink>)
    requires |items| > 0 && |LoadSourcesOrSinks(items[..|items| - 1])| < |LoadSourcesOrSinks(items)|
    ensures var init := items[..|items| - 1];
      var m0, m := LoadSourcesOrSinks(init), LoadSourcesOrSinks(items);
      && |m| == |m0| + 1 && m[|m0|].0 == items[|items| - 1].index
      && Find(Pairs(items), items[|items| - 1].index) == Some(|init|)
  {
    var init, last := items[..|items| - 1], items[|items| - 1];
    PutGrows(LoadSourcesOrSinks(init), last.index, last);
    SourcesOrSinksKeys(init, last.index);
    NewFind(items);
  }

  /** A put that grows the map appended a new key. */
  lemma PutGrows<K(!new), V>(m: seq<(K, V)>, key: K, value: V)
    requires |m| < |Put(m, key, value).0|
    ensures key !in Keys(m) && Put(m, key, value).0 == m + [(key, value)]
  {
  }

  /** An index first listed in the last entry is found there. */
  lemma NewFind(items: seq<SourceOrSink>)
    requires |items| > 0 && items[|items| - 1].index !in Keys(Pairs(items[..|items| - 1]))
    ensures Find(Pairs(items), items[|items| - 1].index) == Some(|items| - 1)
  {
    var init, k := items[..|items| - 1], items[|items| - 1].index;
    forall j | 0 <= j < |items| - 1 ensures Pairs(items)[j].0 != k {
      assert Pairs(items)[j].0 == items[j].index == init[j].index == Keys(Pairs(init))[j];
    }
    FindIsFirst(Pairs(items), k, |items| - 1);
  }


  lemma PairsSnoc(init: seq<SourceOrSink>, last: SourceOrSink)
    ensures Pairs(init + [last]) == Pairs(init) + [(last.index, last)]
  {
  }

  /** A key of the front part is found where it is found in the front part. */
  lemma FindInPrefix<K, V>(a: seq<(K, V)>, b: seq<(K, V)>, k: K)
    requires k in Keys(a)
    ensures Find(a + b, k) == Find(a, k)
  {
    var p := Find(a, k).value;
    FindIsFirst(a + b, k, p);
  }

  /** An IOException while listing leaves the table empty; any other failure
      propagates, and so does streaming a null list. */
  function SourcesOrSinksOrEmpty(listing: Result<Option<seq<SourceOrSink>>>): (r: Result<seq<(Int32, SourceOrSink)>>)
    ensures listing.Ok? && listing.value.Some? ==> r == Ok(LoadSourcesOrSinks(listing.value.value))
    ensures listing.Ok? && listing.value.None? ==> r == Err(NullListing)
    ensures listing.Err? && listing.error.ProcessFailed? ==> r == Ok([])
    ensures listing.Err? && !listing.error.ProcessFailed? ==> r == Err(listing.error)
  {
    match listing
    case Ok(Some(items)) => Ok(LoadSourcesOrSinks(items))
    case Ok(None) => Err(NullListing)
    case Err(ProcessFailed(_)) => Ok([])
    case Err(e) => Err(e)
  }

  /** A listing that fails with a non-zero exit status, whatever it printed
      short of malformed JSON (in particular nothing at all), leaves the table
      empty. */
  lemma FailedListingLeavesTableEmpty(sys: System, kind: Kind, decode: seq<string> -> Decoded)
    requires var out := sys.run(Argv(sys.wrapper, ["--format", "json", "list", if kind.Sources? then "sources" else "sinks"]));
      out.exitCode != 0 && !decode(out.stdout).Malformed?
    ensures SourcesOrSinksOrEmpty(ListSourcesOrSinks(sys, kind, decode)) == Ok([])
  {
  }

  /** A successful listing that decodes to null fails when the table is built. */
  lemma NullListingPropagates(sys: System, kind: Kind, decode: seq<string> -> Decoded)
    requires var out := sys.run(Argv(sys.wrapper, ["--format", "json", "list", if kind.Sources? then "sources" else "sinks"]));
      out.exitCode == 0 && decode(out.stdout).JsonNull?
    ensures SourcesOrSinksOrEmpty(ListSourcesOrSinks(sys, kind, decode)) == Err(NullListing)
  {
  }

  // ---------------------------------------------------------------------------
  // loadLinks

  predicate IsLoopback(m: Module) {
    m.name == "module-loopback"
  }

  /** The `source` argument as an int, -1 when missing or not a number. */
  function SourceOf(m: Module): Int32 {
    GetIntOrDefault(m.arguments, "source", -1)
  }

  /** The `sink` argument as an int, -1 when missing or not a number. */
  function SinkOf(m: Module): Int32 {
    GetIntOrDefault(m.arguments, "sink", -1)
  }

  /** The sources named by the loopback modules of the listing. */
  function Sources(modules: seq<Module>): set<Int32> {
    set j | 0 <= j < |modules| && IsLoopback(modules[j]) :: SourceOf(modules[j])
  }

  /** The sinks named by the loopback modules from the given source. */
  function SinksFrom(modules: seq<Module>, s: Int32): set<Int32> {
    set j | 0 <= j < |modules| && IsLoopback(modules[j]) && SourceOf(modules[j]) == s :: SinkOf(modules[j])
  }

  /** The j-th module is a loopback from s to t. */
  predicate Joins(modules: seq<Module>, j: int, s: Int32, t: Int32) {
    0 <= j < |modules| && IsLoopback(modules[j]) && SourceOf(modules[j]) == s && SinkOf(modules[j]) == t
  }

  /** The loopback modules grouped by source, then keyed by sink, a later
      module replacing an earlier one with the same pair; nothing removed yet. */
  function Group(modules: seq<Module>): map<Int32, map<Int32, Module>>
    decreases |modules|
  {
    if |modules| == 0 then map[]
    else
      var g := Group(modules[..|modules| - 1]);
      var m := modules[|modules| - 1];
      if !IsLoopback(m) then g
      else
        var inner := if SourceOf(m) in g then g[SourceOf(m)] else map[];
        g[SourceOf(m) := inner[SinkOf(m) := m]]
  }

  lemma SourcesSnoc(init: seq<Module>, m: Module)
    ensures Sources(init + [m]) == Sources(init) + (if IsLoopback(m) then {SourceOf(m)} else {})
  {
    var all := init + [m];
    forall s | s in Sources(all) ensures s in Sources(init) || (IsLoopback(m) && s == SourceOf(m)) {
      var j :| 0 <= j < |all| && IsLoopback(all[j]) && SourceOf(all[j]) == s;
      if j < |init| { assert all[j] == init[j]; }
    }
    forall s | s in Sources(init) ensures s in Sources(all) {
      var j :| 0 <= j < |init| && IsLoopback(init[j]) && SourceOf(init[j]) == s;
      assert all[j] == init[j];
    }
    if IsLoopback(m) {
      assert all[|init|] == m;
    }
  }

  lemma SinksSnoc(init: seq<Module>, m: Module, s: Int32)
    ensures SinksFrom(init + [m], s) ==
      SinksFrom(init, s) + (if IsLoopback(m) && SourceOf(m) == s then {SinkOf(m)} else {})
  {
    var all := init + [m];
    forall t | t in SinksFrom(all, s)
      ensures t in SinksFrom(init, s) || (IsLoopback(m) && SourceOf(m) == s && t == SinkOf(m))
    {
      var j :| 0 <= j < |all| && IsLoopback(all[j]) && SourceOf(all[j]) == s && SinkOf(all[j]) == t;
      if j < |init| { assert all[j] == init[j]; }
    }
    forall t | t in SinksFrom(init, s) ensures t in SinksFrom(all, s) {
      var j :| 0 <= j < |init| && IsLoopback(init[j]) && SourceOf(init[j]) == s && SinkOf(init[j]) == t;
      assert all[j] == init[j];
    }
    if IsLoopback(m) && SourceOf(m) == s {
      assert all[|init|] == m;
    }
  }

  /** The groups are keyed by exactly the sources the loopback modules name. */
  lemma {:induction false} GroupSources(modules: seq<Module>)
    ensures Group(modules).Keys == Sources(modules)
    decreases |modules|
  {
    if |modules| > 0 {
      var init, m := modules[..|modules| - 1], modules[|modules| - 1];
      GroupSources(init);
      assert modules == init + [m];
      SourcesSnoc(init, m);
    }
  }

  /** Each group is keyed by exactly the sinks its source's modules name. */
  lemma {:induction false} GroupSinks(modules: seq<Module>, s: Int32)
    requires s in Group(modules)
    ensures Group(modules)[s].Keys == SinksFrom(modules, s)
    decreases |modules|
  {
    var init, m := modules[..|modules| - 1], modules[|modules| - 1];
    assert modules == init + [m];
    SinksSnoc(init, m, s);
    if s in Group(init) {
      GroupSinks(init, s);
    } else {
      GroupSources(init);
    }
  }

  /** Every grouped module is a loopback module of the listing joining its
      two keys. */
  lemma {:induction false} GroupSound(modules: seq<Module>, s: Int32, t: Int32)
    requires s in Group(modules) && t in Group(modules)[s]
    ensures exists j :: Joins(modules, j, s, t) && modules[j] == Group(modules)[s][t]
    decreases |modules|
  {
    var init, m := modules[..|modules| - 1], modules[|modules| - 1];
    var n := |modules| - 1;
    if IsLoopback(m) && SourceOf(m) == s && SinkOf(m) == t {
      assert Joins(modules, n, s, t);
    } else {
      assert s in Group(init) && t in Group(init)[s];
      GroupSound(init, s, t);
      var j :| Joins(init, j, s, t) && init[j] == Group(init)[s][t];
      assert modules[j] == init[j];
      assert Joins(modules, j, s, t);
    }
  }

  /** The module kept for a pair is the last loopback module joining it. */
  lemma {:induction false} GroupLastWins(modules: seq<Module>, j: nat, s: Int32, t: Int32)
    requires Joins(modules, j, s, t)
    requires forall i :: j < i < |modules| ==> !Joins(modules, i, s, t)
    ensures s in Group(modules) && t in Group(modules)[s] && Group(modules)[s][t] == modules[j]
    decreases |modules|
  {
    var init, m := modules[..|modules| - 1], modules[|modules| - 1];
    if j < |modules| - 1 {
      assert Joins(init, j, s, t);
      assert !Joins(modules, |modules| - 1, s, t);
      forall i | j < i < |init| ensures !Joins(init, i, s, t) {
        assert !Joins(modules, i, s, t);
      }
      GroupLastWins(init, j, s, t);
    }
  }

  /** loadLinks: the grouping with the entries for -1 (an unreadable source or
      sink) removed at both levels. */
  function LoadLinks(modules: seq<Module>): (links: map<Int32, map<Int32, Module>>)
    ensures -1 !in links && forall s :: s in links ==> -1 !in links[s]
    ensures links.Keys == Sources(modules) - {-1}
    ensures forall s :: s in links ==> links[s].Keys == SinksFrom(modules, s) - {-1}
  {
    var g := Group(modules);
    GroupSources(modules);
    forall s | s in g ensures g[s].Keys == SinksFrom(modules, s) {
      GroupSinks(modules, s);
    }
    map s | s in g.Keys - {-1} :: g[s] - {-1}
  }

  /** Every link is a loopback module of the listing from its source to its sink. */
  lemma LinksSound(modules: seq<Module>, s: Int32, t: Int32)
    requires s in LoadLinks(modules) && t in LoadLinks(modules)[s]
    ensures exists j :: Joins(modules, j, s, t) && modules[j] == LoadLinks(modules)[s][t]
  {
    GroupSound(modules, s, t);
  }

  /** Every loopback module with a readable source and sink gives a link, and
      the link for a pair is the last module joining it. */
  lemma LinksComplete(modules: seq<Module>, j: nat, s: Int32, t: Int32)
    requires Joins(modules, j, s, t) && s != -1 && t != -1
    requires forall i :: j < i < |modules| ==> !Joins(modules, i, s, t)
    ensures s in LoadLinks(modules) && t in LoadLinks(modules)[s]
    ensures LoadLinks(modules)[s][t] == modules[j]
  {
    GroupLastWins(modules, j, s, t);
  }

  /** A source whose loopback modules all lack a readable sink stays in the
      table with no links. */
  lemma SourceWithoutSinksKept(modules: seq<Module>, j: nat)
    requires j < |modules| && IsLoopback(modules[j]) && SourceOf(modules[j]) != -1
    requires SinksFrom(modules, SourceOf(modules[j])) == {-1}
    ensures SourceOf(modules[j]) in LoadLinks(modules)
    ensures LoadLinks(modules)[SourceOf(modules[j])] == map[]
  {
    var s := SourceOf(modules[j]);
    assert s in Sources(modules);
    var links := LoadLinks(modules);
    assert s in links.Keys;
    var inner := links[s];
    assert inner.Keys == SinksFrom(modules, s) - {-1};
    assert inner.Keys == {};
  }

  /** An IOException while listing the modules leaves no links; any other
      failure propagates. */
  function LinksOrEmpty(listing: Result<seq<Module>>): (r: Result<map<Int32, map<Int32, Module>>>)
    ensures listing.Ok? ==> r == Ok(LoadLinks(listing.value))
    ensures listing.Err? && listing.error.ProcessFailed? ==> r == Ok(map[])
    ensures listing.Err? && !listing.error.ProcessFailed? ==> r == Err(listing.error)
  {
    match listing
    case Ok(modules) => Ok(LoadLinks(modules))
    case Err(ProcessFailed(_)) => Ok(map[])
    case Err(e) => Err(e)
  }
}

=== FILE: ordered_map.dfy ===
/**
 An insertion-ordered map (java.util.LinkedHashMap) as a sequence of pairs.
 `Put` replaces the value of a present key where it stands and appends a new key.
 */
module OrderedMaps {
  import opened Results

  function Keys<K, V>(m: seq<(K, V)>): (ks: seq<K>)
    ensures |ks| == |m|
    ensures forall j :: 0 <= j < |m| ==> ks[j] == m[j].0
  {
    seq(|m|, j requires 0 <= j < |m| => m[j].0)
  }

  /** No key occurs twice: the invariant every LinkedHashMap keeps. */
  predicate DistinctKeys<K(==), V>(m: seq<(K, V)>) {
    forall i, j :: 0 <= i < j < |m| ==> m[i].0 != m[j].0
  }

  /** The position of the first entry with this key. */
  function Find<K(==), V>(m: seq<(K, V)>, key: K): (r: Option<nat>)
    ensures r.None? <==> key !in Keys(m)
    ensures r.Some? ==> r.value < |m| && m[r.value].0 == key
    ensures r.Some? ==> forall j :: 0 <= j < r.value ==> m[j].0 != key
  {
    if |m| == 0 then None
    else if m[0].0 == key then Some(0)
    else
      assert Keys(m) == [m[0].0] + Keys(m[1..]);
      match Find(m[1..], key)
      case None => None
      case Some(p) => Some(p + 1)
  }

  lemma FindIsFirst<K, V>(m: seq<(K, V)>, key: K, p: nat)
    requires p < |m| && m[p].0 == key
    requires forall j :: 0 <= j < p ==> m[j].0 != key
    ensures Find(m, key) == Some(p)
  {
  }

  /** Map.get: the value stored under key, None when the key is absent. */
  function Get<K(==), V>(m: seq<(K, V)>, key: K): (r: Option<V>)
    ensures r.None? <==> key !in Keys(m)
    ensures r.Some? ==> (key, r.value) in m
  {
    match Find(m, key)
    case None => None
    case Some(p) => Some(m[p].1)
  }

  /** Map.put: the updated map and the value the key held before. */
  function Put<K(==, !new), V>(m: seq<(K, V)>, key: K, value: V): (r: (seq<(K, V)>, Option<V>))
    ensures r.1 == Get(m, key)
    ensures Get(r.0, key) == Some(value)
    ensures forall k :: k != key ==> Get(r.0, k) == Get(m, k)
    ensures key !in Keys(m) ==> r.0 == m + [(key, value)]
    ensures key in Keys(m) ==> Keys(r.0) == Keys(m)
    ensures DistinctKeys(m) ==> DistinctKeys(r.0)
  {
    match Find(m, key)
    case None =>
      var updated := m + [(key, value)];
      PutPreservesOthers(m, updated, key);
      FindIsFirst(updated, key, |m|);
      (updated, None)
    case Some(p) =>
      var updated := m[p := (key, value)];
      assert Keys(updated) == Keys(m);
      PutPreservesOthers(m, updated, key);
      FindIsFirst(updated, key, p);
      (updated, Some(m[p].1))
  }

  /** Two maps that agree on every entry whose key is not `key`, up to the
      shorter length, and differ at most by entries with key `key`. */
  lemma PutPreservesOthers<K(!new), V>(m: seq<(K, V)>, updated: seq<(K, V)>, key: K)
    requires |m| <= |updated|
    requires forall j :: 0 <= j < |m| ==> updated[j].0 == m[j].0
    requires forall j :: 0 <= j < |m| && m[j].0 != key ==> updated[j] == m[j]
    requires forall j :: |m| <= j < |updated| ==> updated[j].0 == key
    ensures forall k :: k != key ==> Get(updated, k) == Get(m, k)
  {
    forall k | k != key
      ensures Get(updated, k) == Get(m, k)
    {
      match Find(m, k)
      case None =>
        assert k !in Keys(updated);
      case Some(p) =>
        FindIsFirst(updated, k, p);
    }
  }

  /** The entries of the map as a set: what Map.equals compares. */
  function Entries<K(==), V(==)>(m: seq<(K, V)>): set<(K, V)> {
    set j | 0 <= j < |m| :: m[j]
  }

  /** Map.equals: the same entries, whatever the insertion order. */
  predicate SameEntries<K(==), V(==)>(a: seq<(K, V)>, b: seq<(K, V)>) {
    Entries(a) == Entries(b)
  }

  /** In a map without repeated keys, every stored entry is what get returns. */
  lemma GetStored<K, V>(m: seq<(K, V)>, p: nat)
    requires DistinctKeys(m) && p < |m|
    ensures Get(m, m[p].0) == Some(m[p].1)
  {
    FindIsFirst(m, m[p].0, p);
  }

  /** Two maps without repeated keys have the same entries exactly when get
      agrees on every key. */
  lemma SameEntriesIffSameGet<K, V>(a: seq<(K, V)>, b: seq<(K, V)>)
    requires DistinctKeys(a) && DistinctKeys(b)
    ensures SameEntries(a, b) <==> forall k :: Get(a, k) == Get(b, k)
  {
    if SameEntries(a, b) {
      forall k ensures Get(a, k) == Get(b, k) {
        SameGet(a, b, k);
        SameGet(b, a, k);
      }
    }
    if forall k :: Get(a, k) == Get(b, k) {
      forall e | e in Entries(a) ensures e in Entries(b) {
        EntryFromGet(a, b, e);
      }
      forall e | e in Entries(b) ensures e in Entries(a) {
        EntryFromGet(b, a, e);
      }
    }
  }

  /** An entry of a whose key b maps to the same value is an entry of b. */
  lemma EntryFromGet<K, V>(a: seq<(K, V)>, b: seq<(K, V)>, e: (K, V))
    requires DistinctKeys(a) && e in Entries(a) && Get(a, e.0) == Get(b, e.0)
    ensures e in Entries(b)
  {
    var p :| 0 <= p < |a| && a[p] == e;
    GetStored(a, p);
    var q := Find(b, e.0).value;
    assert b[q] == e;
  }

  /** With equal entry sets, a key b maps to a value maps to the same value in a. */
  lemma SameGet<K, V>(a: seq<(K, V)>, b: seq<(K, V)>, k: K)
    requires DistinctKeys(a) && DistinctKeys(b) && Entries(a) == Entries(b)
    ensures Get(b, k).Some? ==> Get(a, k) == Get(b, k)
  {
    if Get(b, k).Some? {
      var q := Find(b, k).value;
      assert b[q] in Entries(a);
      var p :| 0 <= p < |a| && a[p] == b[q];
      GetStored(a, p);
    }
  }
}

=== FILE: pactl.dfy ===
/**
 Pactl: the commands the application sends to `pactl` and how their output
 is read back. Starting the process is the parameter `run`, which maps the
 argument vector to what the process printed and its exit status; the
 optional command wrapper is a parameter as well.
 */
module Pactl {
  import opened Results
  import opened Text
  import opened OrderedMaps
  import opened Arguments
  import opened ArgumentsProofs
  import opened PactlModules

  /** What a finished process left behind: its standard output lines, its
      exit status and its standard error lines. */
  datatype Output = Output(stdout: seq<string>, exitCode: int, stderr: seq<string>)

  /** How commands are started: an optional wrapper command (already split
      into words) and the process runner. */
  datatype System = System(wrapper: Option<seq<string>>, run: seq<string> -> Output)

  /** One entry of `pactl --format json list sources|sinks`. */
  datatype SourceOrSink = SourceOrSink(index: Int32, description: string)

  datatype Kind = Sources | Sinks

  // ---------------------------------------------------------------------------
  // The argument vector

  /** runProcess: without a wrapper `pactl` followed by the command words; with
      one, the wrapper words followed by a single word holding the whole
      `pactl` command line, the words joined by spaces. */
  function Argv(wrapper: Option<seq<string>>, command: seq<string>): (argv: seq<string>)
    ensures wrapper.None? ==> |argv| == |command| + 1 && argv[0] == "pactl" && argv[1..] == command
    ensures wrapper.Some? ==> |argv| == |wrapper.value| + 1 && argv[..|wrapper.value|] == wrapper.value
    ensures wrapper.Some? ==> argv[|argv| - 1] == "pactl " + Join(" ", command)
  {
    match wrapper
    case None => ["pactl"] + command
    case Some(w) => w + ["pactl " + Join(" ", command)]
  }

  /** The wrapped command line, split at its spaces, is the unwrapped argument
      vector, provided no command word holds a space. */
  lemma WrappedCommandLine(w: seq<string>, command: seq<string>)
    requires |command| > 0 && NoneContains(command, ' ')
    ensures var argv := Argv(Some(w), command);
      Split(argv[|argv| - 1], ' ', |command| + 1) == Argv(None, command)
  {
    var words := ["pactl"] + command;
    var argv := Argv(Some(w), command);
    assert argv[|argv| - 1] == "pactl " + Join(" ", command);
    NoneContainsCons("pactl", command, ' ');
    assert words[1..] == command;
    JoinCons(" ", words);
    assert Join(" ", words) == "pactl " + Join(" ", command);
    SplitJoin(words, ' ', |words|);
  }

  lemma NoneContainsCons(x: string, parts: seq<string>, c: char)
    requires c !in x && NoneContains(parts, c)
    ensures NoneContains([x] + parts, c)
  {
    assert forall j :: 1 <= j < |parts| + 1 ==> ([x] + parts)[j] == parts[j - 1];
  }

  // ---------------------------------------------------------------------------
  // The command vectors

  function KindWord(kind: Kind): string {
    match kind
    case Sources => "sources"
    case Sinks => "sinks"
  }

  /** `pactl --format json list sources` or `... sinks`. */
  function ListCommand(kind: Kind): (command: seq<string>)
    ensures |command| == 4 && command[..3] == ["--format", "json", "list"]
    ensures command[3] == "sources" <==> kind == Sources
    ensures kind == Sinks ==> command[3] == "sinks"
  {
    ["--format", "json", "list", KindWord(kind)]
  }

  const ListModulesCommand: seq<string> := ["list", "short", "modules"]

  /** `pactl load-module <name> <arguments>`: the arguments travel as one word
      that reads back as the same map. */
  function LoadModuleCommand(name: string, args: Args): (command: seq<string>)
    ensures |command| == 3 && command[0] == "load-module" && command[1] == name
    ensures RoundTripSafe(args) ==> Parse(command[2]) == Ok(args)
    ensures command[2] == "" <==> args == []
  {
    RoundTripIfSafe(args);
    ["load-module", name, Serialize(args)]
  }

  lemma RoundTripIfSafe(args: Args)
    ensures RoundTripSafe(args) ==> Parse(Serialize(args)) == Ok(args)
  {
    if RoundTripSafe(args) {
      RoundTrip(args);
    }
  }

  /** `pactl unload-module <index>`: the index as one word pactl reads back. */
  function UnloadModuleCommand(index: Int32): (command: seq<string>)
    ensures |command| == 2 && command[0] == "unload-module"
    ensures ParseInt(command[1]) == Some(index) && !HasWhitespace(command[1])
  {
    ParseIntDecimal(index);
    DecimalHasNoWhitespace(index);
    ["unload-module", Decimal(index)]
  }

  // ---------------------------------------------------------------------------
  // Closing the process output

  /** The reader's close: a non-zero exit status raises an IOException whose
      message is the standard error lines joined by line feeds. */
  function Close(out: Output): (r: Result<()>)
    ensures r.Ok? <==> out.exitCode == 0
    ensures r.Err? ==> r.error == ProcessFailed(Join("\n", out.stderr))
  {
    if out.exitCode != 0 then Err(ProcessFailed(Join("\n", out.stderr))) else Ok(())
  }

  /** The failure message gives back the standard error lines when none holds
      a line feed. */
  lemma CloseMessageLines(out: Output)
    requires out.exitCode != 0 && |out.stderr| > 0 && NoneContains(out.stderr, '\n')
    ensures Split(Close(out).error.message, '\n', |out.stderr|) == out.stderr
  {
    SplitJoin(out.stderr, '\n', |out.stderr|);
  }

  /** try-with-resources: the reader is closed after the body; an exception of
      the body wins over one raised by close. */
  function WithClose<T>(body: Result<T>, out: Output): (r: Result<T>)
    ensures r.Ok? <==> body.Ok? && out.exitCode == 0
    ensures body.Err? ==> r == body
    ensures body.Ok? && out.exitCode != 0 ==> r == Err(ProcessFailed(Join("\n", out.stderr)))
    ensures r.Ok? ==> r == body
  {
    if body.Err? then body
    else match Close(out)
      case Err(e) => Err(e)
      case Ok(_) => body
  }

  // ---------------------------------------------------------------------------
  // `pactl list short modules`

  /** One line: split on tabs into at most four fields, then read as a module. */
  function ParseModuleLine(line: string): (r: Result<Module>)
    ensures r.Ok? ==> '\t' !in r.value.name && DistinctKeys(r.value.arguments)
    ensures r.Ok? ==> var parts := Split(line, '\t', 4);
      && |parts| >= 3 && ParseInt(parts[0]) == Some(r.value.index) && r.value.name == parts[1]
      && Parse(parts[2]) == Ok(r.value.arguments)
    ensures var parts := Split(line, '\t', 4);
      r.Ok? <==> |parts| >= 3 && ParseInt(parts[0]).Some? && Parse(parts[2]).Ok?
  {
    SplitSound(line, '\t', 4);
    ModuleFromFields(Split(line, '\t', 4))
  }

  /** Index, name and arguments from the first three fields, evaluated in that
      order: a bad number fails before a missing field is noticed. */
  function ModuleFromFields(parts: seq<string>): (r: Result<Module>)
    requires |parts| >= 1
    ensures ParseInt(parts[0]).None? ==> r == Err(NotAnInteger(parts[0]))
    ensures ParseInt(parts[0]).Some? && |parts| == 1 ==> r == Err(MissingField(1))
    ensures ParseInt(parts[0]).Some? && |parts| == 2 ==> r == Err(MissingField(2))
    ensures ParseInt(parts[0]).Some? && |parts| >= 3 && Parse(parts[2]).Err? ==> r == Err(Parse(parts[2]).error)
    ensures r.Ok? <==> ParseInt(parts[0]).Some? && |parts| >= 3 && Parse(parts[2]).Ok?
    ensures r.Ok? ==> r.value == Module(ParseInt(parts[0]).value, parts[1], Parse(parts[2]).value)
  {
    match ParseInt(parts[0])
    case None => Err(NotAnInteger(parts[0]))
    case Some(index) =>
      if |parts| < 2 then Err(MissingField(1))
      else if |parts| < 3 then Err(MissingField(2))
      else
        match Parse(parts[2])
        case Err(e) => Err(e)
        case Ok(args) => Ok(Module(index, parts[1], args))
  }

  /** A line with no tab fails: on its number when it is not one, otherwise on
      the missing name. */
  lemma ModuleLineWithoutTab(line: string)
    requires '\t' !in line
    ensures ParseModuleLine(line) ==
      if ParseInt(line).None? then Err(NotAnInteger(line)) else Err(MissingField(1))
  {
    SplitWithoutSeparator(line, '\t', 4);
  }

  /** A line with one tab fails: on its number when it is not one, otherwise on
      the missing arguments field. */
  lemma ModuleLineWithOneTab(x: string, y: string)
    requires '\t' !in x && '\t' !in y
    ensures ParseModuleLine(x + "\t" + y) ==
      if ParseInt(x).None? then Err(NotAnInteger(x)) else Err(MissingField(2))
  {
    SplitFirstField(x + "\t" + y, x, y, '\t', 4);
    SplitWithoutSeparator(y, '\t', 3);
  }

  /** Text after a third tab is ignored: only the third field is parsed as
      the arguments. */
  lemma ModuleLineIgnoresFourthField(x: string, name: string, a: string, extra: string)
    requires '\t' !in x && '\t' !in name && '\t' !in a
    ensures ParseModuleLine(x + "\t" + name + "\t" + a + "\t" + extra) ==
      ParseModuleLine(x + "\t" + name + "\t" + a)
  {
    var long, short := x + "\t" + name + "\t" + a + "\t" + extra, x + "\t" + name + "\t" + a;
    FourFields(x, name, a, extra);
    ThreeFields(x, name, a);
    SameFirstFields(long, short);
  }

  lemma FourFields(x: string, name: string, a: string, extra: string)
    requires '\t' !in x && '\t' !in name && '\t' !in a
    ensures Split(x + "\t" + name + "\t" + a + "\t" + extra, '\t', 4) == [x, name, a, extra]
  {
    var rest := a + "\t" + extra;
    assert x + "\t" + name + "\t" + a + "\t" + extra == x + "\t" + name + "\t" + rest;
    SplitTwoFields(x, name, rest, '\t', 4);
    SplitFirstField(rest, a, extra, '\t', 2);
  }

  lemma ThreeFields(x: string, name: string, a: string)
    requires '\t' !in x && '\t' !in name && '\t' !in a
    ensures Split(x + "\t" + name + "\t" + a, '\t', 4) == [x, name, a]
  {
    SplitTwoFields(x, name, a, '\t', 4);
    SplitWithoutSeparator(a, '\t', 2);
  }

  lemma SameFirstFields(line1: string, line2: string)
    requires var p1, p2 := Split(line1, '\t', 4), Split(line2, '\t', 4);
      |p1| >= 3 && |p2| >= 3 && p1[0] == p2[0] && p1[1] == p2[1] && p1[2] == p2[2]
    ensures ParseModuleLine(line1) == ParseModuleLine(line2)
  {
    SameFields(Split(line1, '\t', 4), Split(line2, '\t', 4));
  }

  lemma SameFields(p1: seq<string>, p2: seq<string>)
    requires |p1| >= 3 && |p2| >= 3 && p1[0] == p2[0] && p1[1] == p2[1] && p1[2] == p2[2]
    ensures ModuleFromFields(p1) == ModuleFromFields(p2)
  {
  }

  /** The line a module prints is read back as that module when its name and
      arguments hold no tab and the arguments survive their own round trip. */
  lemma ModuleLineRoundTrip(m: Module)
    requires '\t' !in m.name && TabFree(m.arguments) && RoundTripSafe(m.arguments)
    ensures ParseModuleLine(ModuleText(m)) == Ok(m)
  {
    SerializeTabFree(m.arguments);
    ModuleTextFields(m);
    ParseIntDecimal(m.index);
    RoundTrip(m.arguments);
  }

  /** All lines, in order; the first line that fails decides the error. */
  function ParseModuleLines(lines: seq<string>): (r: Result<seq<Module>>)
    ensures r.Ok? <==> forall j :: 0 <= j < |lines| ==> ParseModuleLine(lines[j]).Ok?
    ensures r.Ok? ==> |r.value| == |lines| && forall j :: 0 <= j < |lines| ==> ParseModuleLine(lines[j]) == Ok(r.value[j])
    ensures r.Err? ==> exists j :: 0 <= j < |lines| && ParseModuleLine(lines[j]) == Err(r.error)
  {
    Collect(LineResults(lines))
  }

  function LineResults(lines: seq<string>): (rs: seq<Result<Module>>)
    ensures |rs| == |lines| && forall j :: 0 <= j < |lines| ==> rs[j] == ParseModuleLine(lines[j])
  {
    seq(|lines|, j requires 0 <= j < |lines| => ParseModuleLine(lines[j]))
  }

  /** Stream.toList over a mapping that may throw: the values when every
      element succeeds, otherwise the first failure. */
  function Collect<T>(rs: seq<Result<T>>): (r: Result<seq<T>>)
    ensures r.Ok? <==> forall j :: 0 <= j < |rs| ==> rs[j].Ok?
    ensures r.Ok? ==> |r.value| == |rs| && forall j :: 0 <= j < |rs| ==> rs[j] == Ok(r.value[j])
    ensures r.Err? ==> exists j :: 0 <= j < |rs| && rs[j] == Err(r.error)
  {
    if |rs| == 0 then Ok([])
    else
      match rs[0]
      case Err(e) => Err(e)
      case Ok(x) =>
        match Collect(rs[1..])
        case Err(e) => Err(e)
        case Ok(xs) => Ok([x] + xs)
  }

  /** The failure of a collection is that of its first failing element. */
  lemma {:induction false} CollectFirstError<T>(rs: seq<Result<T>>, j: nat)
    requires j < |rs| && rs[j].Err?
    requires forall i :: 0 <= i < j ==> rs[i].Ok?
    ensures Collect(rs) == Err(rs[j].error)
    decreases j
  {
    if j > 0 {
      assert rs[1..][j - 1] == rs[j];
      CollectFirstError(rs[1..], j - 1);
    }
  }

  /** The error of a failing listing is that of its first failing line. */
  lemma ModuleLinesFirstError(lines: seq<string>, j: nat)
    requires j < |lines| && ParseModuleLine(lines[j]).Err?
    requires forall i :: 0 <= i < j ==> ParseModuleLine(lines[i]).Ok?
    ensures ParseModuleLines(lines) == Err(ParseModuleLine(lines[j]).error)
  {
    CollectFirstError(LineResults(lines), j);
  }

  function ModuleTexts(ms: seq<Module>): (lines: seq<string>)
    ensures |lines| == |ms| && forall j :: 0 <= j < |ms| ==> lines[j] == ModuleText(ms[j])
  {
    seq(|ms|, j requires 0 <= j < |ms| => ModuleText(ms[j]))
  }

  /** The printed lines of a list of modules read back as that list. */
  lemma ModuleListRoundTrip(ms: seq<Module>)
    requires forall j :: 0 <= j < |ms| ==>
      '\t' !in ms[j].name && TabFree(ms[j].arguments) && RoundTripSafe(ms[j].arguments)
    ensures ParseModuleLines(ModuleTexts(ms)) == Ok(ms)
  {
    var lines := ModuleTexts(ms);
    forall j | 0 <= j < |ms| ensures ParseModuleLine(lines[j]) == Ok(ms[j]) {
      ModuleLineRoundTrip(ms[j]);
    }
    var r := ParseModuleLines(lines);
    assert r.Ok?;
    assert r.value == ms;
  }

  // ---------------------------------------------------------------------------
  // The operations

  function Invoke(sys: System, command: seq<string>): Output {
    sys.run(Argv(sys.wrapper, command))
  }

  /** listModules: every output line read as a module, then the exit status. */
  function ListModules(sys: System): (r: Result<seq<Module>>)
    ensures var out := sys.run(Argv(sys.wrapper, ["list", "short", "modules"]));
      && (r.Ok? <==> out.exitCode == 0 && ParseModuleLines(out.stdout).Ok?)
      && (r.Ok? ==> |r.value| == |out.stdout| && Ok(r.value) == ParseModuleLines(out.stdout))
      && (ParseModuleLines(out.stdout).Err? ==> r == ParseModuleLines(out.stdout))
      && (ParseModuleLines(out.stdout).Ok? && out.exitCode != 0 ==> r == Err(ProcessFailed(Join("\n", out.stderr))))
  {
    var out := Invoke(sys, ListModulesCommand);
    WithClose(ParseModuleLines(out.stdout), out)
  }

  /** The index on the first output line, surrounding blanks trimmed; no line
      at all is the null that readLine returns. */
  function FirstLineIndex(stdout: seq<string>): (r: Result<Int32>)
    ensures |stdout| == 0 ==> r == Err(NoOutput)
    ensures r.Ok? <==> |stdout| > 0 && ParseInt(Trim(stdout[0])).Some?
    ensures r.Ok? ==> |stdout| > 0 && ParseInt(Trim(stdout[0])) == Some(r.value)
    ensures r.Err? && |stdout| > 0 ==> r == Err(NotAnInteger(Trim(stdout[0])))
  {
    if |stdout| == 0 then Err(NoOutput)
    else
      var text := Trim(stdout[0]);
      match ParseInt(text)
      case None => Err(NotAnInteger(text))
      case Some(n) => Ok(n)
  }

  /** loadModule(name, arguments): the index pactl prints for the new module. */
  function LoadModule(sys: System, name: string, args: Args): (r: Result<Int32>)
    ensures var out := sys.run(Argv(sys.wrapper, ["load-module", name, Serialize(args)]));
      && (r.Ok? <==> out.exitCode == 0 && FirstLineIndex(out.stdout).Ok?)
      && (r.Ok? ==> ParseInt(Trim(out.stdout[0])) == Some(r.value))
      && (FirstLineIndex(out.stdout).Err? ==> r == FirstLineIndex(out.stdout))
      && (FirstLineIndex(out.stdout).Ok? && out.exitCode != 0 ==> r == Err(ProcessFailed(Join("\n", out.stderr))))
      && (|out.stdout| == 0 ==> r == Err(NoOutput))
  {
    var out := Invoke(sys, LoadModuleCommand(name, args));
    WithClose(FirstLineIndex(out.stdout), out)
  }

  /** loadModule(name): the same with no arguments, an empty argument word. */
  function LoadModuleWithoutArguments(sys: System, name: string): (r: Result<Int32>)
    ensures var out := sys.run(Argv(sys.wrapper, ["load-module", name, ""]));
      && (r.Ok? <==> out.exitCode == 0 && FirstLineIndex(out.stdout).Ok?)
      && (r.Ok? ==> ParseInt(Trim(out.stdout[0])) == Some(r.value))
      && (FirstLineIndex(out.stdout).Err? ==> r == FirstLineIndex(out.stdout))
      && (FirstLineIndex(out.stdout).Ok? && out.exitCode != 0 ==> r == Err(ProcessFailed(Join("\n", out.stderr))))
  {
    LoadModule(sys, name, [])
  }

  /** A successful load whose first line is the decimal index, padded with
      blanks, yields that index. */
  lemma LoadModuleReadsIndex(sys: System, name: string, args: Args, before: string, n: Int32, after: string)
    requires forall j :: 0 <= j < |before| ==> IsTrimmed(before[j])
    requires forall j :: 0 <= j < |after| ==> IsTrimmed(after[j])
    requires var out := sys.run(Argv(sys.wrapper, ["load-module", name, Serialize(args)]));
      out.exitCode == 0 && |out.stdout| > 0 && out.stdout[0] == before + Decimal(n) + after
    ensures LoadModule(sys, name, args) == Ok(n)
  {
    DecimalIsTrimmed(n);
    TrimPadded(before, Decimal(n), after);
    ParseIntDecimal(n);
  }

  /** unloadModule: succeeds exactly when the process exits with status zero. */
  function UnloadModule(sys: System, index: Int32): (r: Result<()>)
    ensures var out := sys.run(Argv(sys.wrapper, ["unload-module", Decimal(index)]));
      && (r.Ok? <==> out.exitCode == 0)
      && (r.Err? ==> r == Err(ProcessFailed(Join("\n", out.stderr))))
  {
    Close(Invoke(sys, UnloadModuleCommand(index)))
  }

  /** What Gson makes of the JSON listing: a syntax error, null (an empty
      document), or the list. */
  datatype Decoded = Malformed | JsonNull | Listing(items: seq<SourceOrSink>)

  /** listSources and listSinks: the JSON listing decoded by `decode`, then the
      exit status. A syntax error is raised by the body and wins over the exit
      status; a null list leaves the body normally, so the exit status decides
      and a successful run returns null. */
  function ListSourcesOrSinks(sys: System, kind: Kind, decode: seq<string> -> Decoded)
    : (r: Result<Option<seq<SourceOrSink>>>)
    ensures var out := sys.run(Argv(sys.wrapper, ["--format", "json", "list", if kind == Sources then "sources" else "sinks"]));
      && (r.Ok? <==> out.exitCode == 0 && !decode(out.stdout).Malformed?)
      && (decode(out.stdout).Malformed? ==> r == Err(MalformedJson))
      && (!decode(out.stdout).Malformed? && out.exitCode != 0 ==> r == Err(ProcessFailed(Join("\n", out.stderr))))
      && (r.Ok? && decode(out.stdout).Listing? ==> r.value == Some(decode(out.stdout).items))
      && (r.Ok? && decode(out.stdout).JsonNull? ==> r.value == None)
  {
    var out := Invoke(sys, ListCommand(kind));
    var body := match decode(out.stdout)
      case Malformed => Err(MalformedJson)
      case JsonNull => Ok(None)
      case Listing(items) => Ok(Some(items));
    WithClose(body, out)
  }
}

=== FILE: pactl_module.dfy ===
/**
 PactlModule: one loaded PulseAudio module as `pactl list short modules`
 reports it, and the tab-separated line its toString prints.
 */
module PactlModules {
  import opened Text
  import opened OrderedMaps
  import opened Arguments

  /** The record (index, name, arguments); equality is component-wise, the
      arguments compared as maps, whatever their order (see SameModule). */
  datatype Module = Module(index: Int32, name: string, arguments: Args)

  /** The record's equals: equal index and name, and arguments equal as maps
      (the same entries in any order). */
  predicate SameModule(m1: Module, m2: Module) {
    m1.index == m2.index && m1.name == m2.name && SameEntries(m1.arguments, m2.arguments)
  }

  /** Two modules whose argument maps have no repeated key are equal exactly
      when index and name agree and every argument lookup agrees. */
  lemma SameModuleIff(m1: Module, m2: Module)
    requires DistinctKeys(m1.arguments) && DistinctKeys(m2.arguments)
    ensures SameModule(m1, m2) <==>
      m1.index == m2.index && m1.name == m2.name && forall k :: Get(m1.arguments, k) == Get(m2.arguments, k)
  {
    SameEntriesIffSameGet(m1.arguments, m2.arguments);
  }

  /** toString: the index in decimal, the name and the serialized arguments,
      separated by tabs. */
  function ModuleText(m: Module): (line: string)
    ensures var d, n := |Decimal(m.index)|, |m.name|;
      && |line| == d + n + |Serialize(m.arguments)| + 2
      && line[..d] == Decimal(m.index) && line[d] == '\t'
      && line[d + 1..d + 1 + n] == m.name && line[d + 1 + n] == '\t'
      && line[d + n + 2..] == Serialize(m.arguments)
  {
    TabFields(Decimal(m.index), m.name, Serialize(m.arguments));
    Decimal(m.index) + "\t" + m.name + "\t" + Serialize(m.arguments)
  }

  /** Where the three fields of a tab-separated line sit. */
  lemma TabFields(x: string, y: string, z: string)
    ensures var line := x + "\t" + y + "\t" + z;
      && |line| == |x| + |y| + |z| + 2
      && line[..|x|] == x && line[|x|] == '\t'
      && line[|x| + 1..|x| + 1 + |y|] == y && line[|x| + 1 + |y|] == '\t'
      && line[|x| + |y| + 2..] == z
  {
    var line := x + "\t" + y + "\t" + z;
    assert line == x + ("\t" + y + "\t" + z);
    assert line[|x| + 1..] == y + "\t" + z;
  }

  /** No key or value of the map holds a tab. */
  predicate TabFree(a: Args) {
    forall j :: 0 <= j < |a| ==> '\t' !in a[j].0 && '\t' !in a[j].1
  }

  /** Splitting the line on tabs (at most four fields) gives back the index
      and the name; the third field is the whole argument text when that text
      has no tab. */
  lemma ModuleTextFields(m: Module)
    requires '\t' !in m.name
    ensures var parts := Split(ModuleText(m), '\t', 4);
      && |parts| >= 3 && parts[0] == Decimal(m.index) && parts[1] == m.name
      && ('\t' !in Serialize(m.arguments) ==> parts == [Decimal(m.index), m.name, Serialize(m.arguments)])
  {
    var d, ser := Decimal(m.index), Serialize(m.arguments);
    DecimalHasNoWhitespace(m.index);
    SplitTwoFields(d, m.name, ser, '\t', 4);
    if '\t' !in ser {
      SplitWithoutSeparator(ser, '\t', 2);
    }
  }

  /** Maps without tabs in keys and values serialize without tabs: a tab is
      whitespace, so such a value is quoted but never split. */
  lemma SerializeTabFree(a: Args)
    requires TabFree(a)
    ensures '\t' !in Serialize(a)
  {
    var texts := EntryTexts(a);
    forall j | 0 <= j < |texts| ensures '\t' !in texts[j] {
      var k, v := a[j].0, a[j].1;
      var enc := ValueToString(v);
      assert '\t' !in enc by {
        if !HasWhitespace(v) {
        } else if '"' in v {
          assert enc == "'" + v + "'";
        } else {
          assert enc == "\"" + v + "\"";
        }
      }
      assert texts[j] == k + "=" + enc;
    }
    JoinExcludes(" ", texts, '\t');
  }
}

=== FILE: results.dfy ===
/** Failure-carrying values shared by every layer of the model. */
module Results {

  /** A Java reference that may be null. */
  datatype Option<+T> = None | Some(value: T)

  /** The exceptions the modelled code can raise, one constructor per distinct cause. */
  datatype Error =
    /** IllegalArgumentException: an '=' where a key should start. */
    | UnexpectedEquals(position: nat)
    /** IllegalArgumentException: a key stored twice; the position is where that key starts. */
    | DuplicateKey(position: nat)
    /** IllegalArgumentException: input ended inside a key or an unclosed quote. */
    | UnexpectedEnd
    /** NumberFormatException from Integer.parseInt. */
    | NotAnInteger(text: string)
    /** ArrayIndexOutOfBoundsException: a module line lacks the field with this index. */
    | MissingField(field: nat)
    /** NullPointerException: the process printed no line where one was read. */
    | NoOutput
    /** IOException raised on close: non-zero exit status, carrying the joined stderr lines. */
    | ProcessFailed(message: string)
    /** JsonSyntaxException: the JSON listing could not be decoded. */
    | MalformedJson
    /** NullPointerException: the JSON listing decoded to null (as Gson does for
        an empty document), and the table builder streamed that null list. */
    | NullListing

  datatype Result<+T> = Ok(value: T) | Err(error: Error)
}

=== FILE: text.dfy ===
/**
 The pieces of java.lang.String and java.lang.Integer that the modelled code
 relies on: Character.isWhitespace, String.join, String.split with a limit,
 String.trim, ASCII lower-casing, Integer.toString and Integer.parseInt.
 A string is a sequence of code points, one char each.
 */
module Text {
  import opened Results

  /** Java's `int`. */
  type Int32 = n: int | -0x8000_0000 <= n < 0x8000_0000

  /** Character.isWhitespace: the ASCII separators and controls it accepts plus
      the Unicode space, line and paragraph separators other than the no-break ones. */
  predicate IsWhitespace(c: char) {
    var n := c as int;
    || 0x09 <= n <= 0x0D
    || 0x1C <= n <= 0x20
    || n == 0x1680
    || 0x2000 <= n <= 0x2006
    || 0x2008 <= n <= 0x200A
    || n == 0x2028 || n == 0x2029 || n == 0x205F || n == 0x3000
  }

  predicate HasWhitespace(s: string) {
    exists j :: 0 <= j < |s| && IsWhitespace(s[j])
  }

  /** String.join(sep, parts). */
  function Join(sep: string, parts: seq<string>): string {
    if |parts| == 0 then ""
    else if |parts| == 1 then parts[0]
    else parts[0] + sep + Join(sep, parts[1..])
  }

  /** Appending one part to a non-empty join adds one separator. */
  lemma {:induction false} JoinSnoc(sep: string, parts: seq<string>, last: string)
    requires |parts| > 0
    ensures Join(sep, parts + [last]) == Join(sep, parts) + sep + last
    decreases |parts|
  {
    if |parts| == 1 {
      assert parts + [last] == [parts[0], last];
      assert [parts[0], last][1..] == [last];
    } else {
      assert (parts + [last])[1..] == parts[1..] + [last];
      JoinSnoc(sep, parts[1..], last);
    }
  }

  /** The position of the first occurrence of c in s. */
  function IndexOf(s: string, c: char): (r: Option<nat>)
    ensures r.None? <==> c !in s
    ensures r.Some? ==> r.value < |s| && s[r.value] == c && c !in s[..r.value]
  {
    if |s| == 0 then None
    else if s[0] == c then Some(0)
    else
      match IndexOf(s[1..], c)
      case None => None
      case Some(p) =>
        assert s[..p + 1] == [s[0]] + s[1..][..p];
        Some(p + 1)
  }

  lemma IndexOfIsFirst(s: string, c: char, p: nat)
    requires p < |s| && s[p] == c && c !in s[..p]
    ensures IndexOf(s, c) == Some(p)
  {
  }

  /** String.split(sep, limit) for a one-character separator and a positive limit:
      at most limit pieces, split at the first limit - 1 separators, trailing
      empty pieces kept. */
  function Split(s: string, sep: char, limit: nat): (parts: seq<string>)
    requires limit >= 1
    ensures 1 <= |parts| <= limit
    decreases |s|
  {
    if limit == 1 then [s]
    else
      match IndexOf(s, sep)
      case None => [s]
      case Some(p) => [s[..p]] + Split(s[p + 1..], sep, limit - 1)
  }

  /** The pieces join back to the input; every piece but the last is free of
      the separator, and so is the last when the limit was not reached. */
  predicate SplitsInto(s: string, sep: char, limit: nat, parts: seq<string>) {
    && |parts| >= 1
    && Join([sep], parts) == s
    && (forall j :: 0 <= j < |parts| - 1 ==> sep !in parts[j])
    && (|parts| < limit ==> sep !in parts[|parts| - 1])
  }

  lemma {:induction false} SplitSound(s: string, sep: char, limit: nat)
    requires limit >= 1
    ensures SplitsInto(s, sep, limit, Split(s, sep, limit))
    decreases |s|
  {
    if limit == 1 || IndexOf(s, sep).None? {
      SplitWhole(s, sep, limit);
    } else {
      var p := IndexOf(s, sep).value;
      SplitSound(s[p + 1..], sep, limit - 1);
      SplitAt(s, sep, limit, p);
      SplitsIntoCons(s, sep, limit, p, Split(s[p + 1..], sep, limit - 1));
    }
  }

  /** Cutting at the first separator and splitting the rest splits the whole. */
  lemma SplitsIntoCons(s: string, sep: char, limit: nat, p: nat, rest: seq<string>)
    requires limit > 1 && IndexOf(s, sep) == Some(p)
    requires SplitsInto(s[p + 1..], sep, limit - 1, rest)
    ensures SplitsInto(s, sep, limit, [s[..p]] + rest)
  {
    var parts := [s[..p]] + rest;
    assert parts[1..] == rest;
    JoinCons([sep], parts);
    assert s == s[..p] + [sep] + s[p + 1..];
    assert forall j :: 1 <= j < |parts| ==> parts[j] == rest[j - 1];
  }

  /** With the limit reached or no separator left, the input is the one piece. */
  lemma SplitWhole(s: string, sep: char, limit: nat)
    requires limit >= 1 && (limit == 1 || sep !in s)
    ensures Split(s, sep, limit) == [s]
    ensures Join([sep], Split(s, sep, limit)) == s
  {
  }

  lemma SplitAt(s: string, sep: char, limit: nat, p: nat)
    requires limit > 1 && IndexOf(s, sep) == Some(p)
    ensures Split(s, sep, limit) == [s[..p]] + Split(s[p + 1..], sep, limit - 1)
  {
  }

  lemma SplitWithoutSeparator(s: string, sep: char, limit: nat)
    requires limit >= 1 && sep !in s
    ensures Split(s, sep, limit) == [s]
  {
  }

  lemma JoinCons(sep: string, parts: seq<string>)
    requires |parts| > 1
    ensures Join(sep, parts) == parts[0] + sep + Join(sep, parts[1..])
  {
  }

  /** A first field free of the separator is cut off as the first piece. */
  lemma SplitFirstField(s: string, x: string, rest: string, sep: char, limit: nat)
    requires limit > 1 && sep !in x && s == x + [sep] + rest
    ensures Split(s, sep, limit) == [x] + Split(rest, sep, limit - 1)
  {
    assert s[|x|] == sep && s[..|x|] == x && s[|x| + 1..] == rest;
    IndexOfIsFirst(s, sep, |x|);
    SplitAt(s, sep, limit, |x|);
  }

  /** Two leading fields free of the separator are cut off as the first two pieces. */
  lemma SplitTwoFields(x: string, y: string, rest: string, sep: char, limit: nat)
    requires limit > 2 && sep !in x && sep !in y
    ensures Split(x + [sep] + y + [sep] + rest, sep, limit) == [x, y] + Split(rest, sep, limit - 2)
  {
    var tail := y + [sep] + rest;
    assert x + [sep] + y + [sep] + rest == x + [sep] + tail;
    SplitFirstField(x + [sep] + tail, x, tail, sep, limit);
    SplitFirstField(tail, y, rest, sep, limit - 1);
  }

  /** A join holds a character only if a part or the separator holds it. */
  lemma {:induction false} JoinExcludes(sep: string, parts: seq<string>, c: char)
    requires c !in sep && NoneContains(parts, c)
    ensures c !in Join(sep, parts)
    decreases |parts|
  {
    if |parts| > 1 {
      NoneContainsTail(parts, c);
      JoinExcludes(sep, parts[1..], c);
      assert Join(sep, parts) == parts[0] + sep + Join(sep, parts[1..]);
    }
  }

  /** No part contains the character. */
  predicate NoneContains(parts: seq<string>, c: char) {
    forall j :: 0 <= j < |parts| ==> c !in parts[j]
  }

  /** Splitting a join recovers the parts when no part holds the separator. */
  lemma {:induction false} SplitJoin(parts: seq<string>, sep: char, limit: nat)
    requires 1 <= |parts| <= limit
    requires NoneContains(parts, sep)
    ensures Split(Join([sep], parts), sep, limit) == parts
    decreases |parts|
  {
    if |parts| == 1 {
      SplitJoinSingle(parts, sep, limit);
    } else {
      NoneContainsTail(parts, sep);
      SplitJoin(parts[1..], sep, limit - 1);
      SplitJoinStep(parts, sep, limit);
    }
  }

  lemma SplitJoinStep(parts: seq<string>, sep: char, limit: nat)
    requires |parts| > 1 && limit > 1 && sep !in parts[0]
    requires Split(Join([sep], parts[1..]), sep, limit - 1) == parts[1..]
    ensures Split(Join([sep], parts), sep, limit) == parts
  {
    JoinSplitsAtFirst(parts, sep);
    SplitAt(Join([sep], parts), sep, limit, |parts[0]|);
    assert parts == [parts[0]] + parts[1..];
  }

  /** A join of several parts has its first separator right after the first
      part, and the rest is the join of the other parts. */
  lemma JoinSplitsAtFirst(parts: seq<string>, sep: char)
    requires |parts| > 1 && sep !in parts[0]
    ensures var s := Join([sep], parts);
      && IndexOf(s, sep) == Some(|parts[0]|)
      && s[..|parts[0]|] == parts[0] && s[|parts[0]| + 1..] == Join([sep], parts[1..])
  {
    var tail := Join([sep], parts[1..]);
    var s := parts[0] + [sep] + tail;
    JoinCons([sep], parts);
    var p := |parts[0]|;
    assert s[..p] == parts[0];
    assert s[p + 1..] == tail;
    IndexOfIsFirst(s, sep, p);
  }

  lemma SplitJoinSingle(parts: seq<string>, sep: char, limit: nat)
    requires |parts| == 1 && limit >= 1 && sep !in parts[0]
    ensures Split(Join([sep], parts), sep, limit) == parts
  {
    SplitWithoutSeparator(parts[0], sep, limit);
  }

  lemma NoneContainsTail(parts: seq<string>, c: char)
    requires |parts| > 0 && NoneContains(parts, c)
    ensures c !in parts[0] && NoneContains(parts[1..], c)
  {
    assert forall j :: 0 <= j < |parts| - 1 ==> parts[1..][j] == parts[j + 1];
  }

  // ---------------------------------------------------------------------------
  // Integer.toString and Integer.parseInt

  predicate IsDigit(c: char) { '0' <= c <= '9' }

  predicate AllDigits(s: string) { forall j :: 0 <= j < |s| ==> IsDigit(s[j]) }

  function DigitChar(d: nat): (c: char)
    requires d < 10
    ensures IsDigit(c)
  {
    ('0' as int + d) as char
  }

  /** The decimal digits of n, most significant first, without leading zeros. */
  function NatText(n: nat): (s: string)
    ensures |s| > 0 && AllDigits(s)
    decreases n
  {
    if n < 10 then [DigitChar(n)] else NatText(n / 10) + [DigitChar(n % 10)]
  }

  /** Integer.toString. */
  function Decimal(n: int): string {
    if n < 0 then "-" + NatText(-n) else NatText(n)
  }

  /** The value of a string of decimal digits. */
  function DigitsValue(s: string): nat
    requires AllDigits(s)
  {
    if |s| == 0 then 0 else DigitsValue(s[..|s| - 1]) * 10 + (s[|s| - 1] as int - '0' as int)
  }

  /** Integer.parseInt: an optional sign, at least one digit, and a value that fits
      an int; None stands for NumberFormatException. */
  function ParseInt(s: string): (r: Option<Int32>)
    ensures r.Some? ==> |s| > 0 && AllDigits(s[1..]) && (IsDigit(s[0]) || (|s| > 1 && s[0] in "+-"))
  {
    if |s| == 0 then None
    else
      var digits := if s[0] == '-' || s[0] == '+' then s[1..] else s;
      if |digits| == 0 || !AllDigits(digits) then None
      else
        var magnitude: int := DigitsValue(digits);
        var n := if s[0] == '-' then -magnitude else magnitude;
        if -0x8000_0000 <= n < 0x8000_0000 then Some(n) else None
  }

  lemma {:induction false} NatTextValue(n: nat)
    ensures DigitsValue(NatText(n)) == n
    decreases n
  {
    if n >= 10 {
      var s := NatText(n);
      assert s[..|s| - 1] == NatText(n / 10);
      NatTextValue(n / 10);
    }
  }

  /** Reading back the decimal text of an int gives the int. */
  lemma ParseIntDecimal(n: Int32)
    ensures ParseInt(Decimal(n)) == Some(n)
  {
    var s := Decimal(n);
    var m: int := n;
    if m < 0 {
      var digits := NatText(-m);
      assert s == "-" + digits && s[0] == '-' && s[1..] == digits;
      NatTextValue(-m);
      assert DigitsValue(digits) == -m;
    } else {
      assert s == NatText(n) && IsDigit(s[0]);
      NatTextValue(n);
    }
  }

  /** Decimal text has no whitespace and no tab. */
  lemma DecimalHasNoWhitespace(n: int)
    ensures !HasWhitespace(Decimal(n))
    ensures '\t' !in Decimal(n)
  {
    var s := Decimal(n);
    if n < 0 {
      assert s == "-" + NatText(-n);
      assert forall j :: 1 <= j < |s| ==> s[j] == NatText(-n)[j - 1];
    }
  }

  // ---------------------------------------------------------------------------
  // String.trim: strips every char up to U+0020 from both ends

  predicate IsTrimmed(c: char) { c <= ' ' }

  function TrimStart(s: string): (r: string)
    ensures |r| <= |s| && r == s[|s| - |r|..]
    ensures forall j :: 0 <= j < |s| - |r| ==> IsTrimmed(s[j])
    ensures |r| > 0 ==> !IsTrimmed(r[0])
  {
    if |s| > 0 && IsTrimmed(s[0]) then TrimStart(s[1..]) else s
  }

  function TrimEnd(s: string): (r: string)
    ensures |r| <= |s| && r == s[..|r|]
    ensures forall j :: |r| <= j < |s| ==> IsTrimmed(s[j])
    ensures |r| > 0 ==> !IsTrimmed(r[|r| - 1])
  {
    if |s| > 0 && IsTrimmed(s[|s| - 1]) then TrimEnd(s[..|s| - 1]) else s
  }

  function Trim(s: string): string {
    TrimEnd(TrimStart(s))
  }

  /** Trim removes exactly the padding around text that starts and ends with a
      printable char. */
  lemma TrimPadded(before: string, t: string, after: string)
    requires |t| > 0 && !IsTrimmed(t[0]) && !IsTrimmed(t[|t| - 1])
    requires forall j :: 0 <= j < |before| ==> IsTrimmed(before[j])
    requires forall j :: 0 <= j < |after| ==> IsTrimmed(after[j])
    ensures Trim(before + t + after) == t
  {
    TrimStartPadded(before, t + after);
    assert before + t + after == before + (t + after);
    TrimEndPadded(t, after);
  }

  lemma TrimStartPadded(before: string, rest: string)
    requires |rest| > 0 && !IsTrimmed(rest[0])
    requires forall j :: 0 <= j < |before| ==> IsTrimmed(before[j])
    ensures TrimStart(before + rest) == rest
  {
    var s := before + rest;
    var a := TrimStart(s);
    assert s[|before|] == rest[0];
    assert |s| - |a| == |before|;
  }

  lemma TrimEndPadded(rest: string, after: string)
    requires |rest| > 0 && !IsTrimmed(rest[|rest| - 1])
    requires forall j :: 0 <= j < |after| ==> IsTrimmed(after[j])
    ensures TrimEnd(rest + after) == rest
  {
    var s := rest + after;
    var b := TrimEnd(s);
    assert s[|rest| - 1] == rest[|rest| - 1];
    assert |b| == |rest|;
  }


  lemma DecimalIsTrimmed(n: int)
    ensures |Decimal(n)| > 0 && !IsTrimmed(Decimal(n)[0]) && !IsTrimmed(Decimal(n)[|Decimal(n)| - 1])
  {
  }

  // ---------------------------------------------------------------------------
  // Lower-casing

  function LowerChar(c: char): char {
    if 'A' <= c <= 'Z' then (c as int + 32) as char else c
  }

  /** toLowerCase(Locale.ROOT) restricted to ASCII letters. */
  function Lower(s: string): (r: string)
    ensures |r| == |s|
    ensures forall j :: 0 <= j < |s| ==> r[j] == LowerChar(s[j])
  {
    seq(|s|, j requires 0 <= j < |s| => LowerChar(s[j]))
  }

  /** The two strings are equal when case is ignored. */
  predicate EqualsIgnoreCase(a: string, b: string) {
    |a| == |b| && forall j :: 0 <= j < |a| ==> LowerChar(a[j]) == LowerChar(b[j])
  }
}
